=== FILE: README.md ===
# Triangle drill engine — a Dafny model

The repository is a Tkinter trigonometry drill in four near-duplicate
variants: `xd3.py`, `xd.py`, `xd2.py` and `hola.py`. Each one generates a
random triangle of a requested type. It then reveals part of the
triangle's sides and angles according to a mode, checks the learner's
answers for the hidden ones, and draws the triangle on a 520×420 canvas.
This project models the engine under the widgets as pure functions over
Dafny `real`s and proves what the engine guarantees:

- `common.dfy` (`Common`): optional values, Python-style raised exceptions
  (`Outcome`), `min`/`max`/clamping, and the property assumed of `math.sqrt`.
- `measures.dfy` (`Measures`): the triangle record and `seleccionar_medidas`.
  This covers the five-mode table, and hola.py's `MODOS[modo_index]` lookup,
  which can raise.
- `trig.dfy` (`Trig`): `law_of_cosines_angle` and hola.py's `law_of_sines_angle`.
- `sampler.dfy` (`Sampler`): `generar_triangulo` of xd.py, xd2.py and xd3.py.
  That is the per-type rejection rules, the 30-attempt loop, the
  (50, 60, 70) fallback and the Law-of-Sines sides.
- `hola_sampler.dfy` (`HolaSampler`): hola.py's recursive `generar_triangulo`.
- `answers.dfy` (`Answers`): `verificar_respuestas`. In xd3.py it ends in a
  popup; in xd2.py it appends lines to the text panel.
- `layout.dfy` (`Layout`): the arithmetic of `_draw_triangle` (xd3.py,
  xd2.py, and xd.py with its guards) and of hola.py's `draw`.
- `session.dfy` (`Session`): the event handlers that keep the mode, the
  triangle, the revealed/hidden split and the `show_solution`/`show_hints`
  flags.

Parameters stand in for everything outside the engine:
- Randomness: the values `random.uniform` would return arrive as sequences
  of draws. A recursive generator answers None when the supplied draws run
  out.
- `math.sin`, `math.acos`, `math.asin` and `math.sqrt` arrive as function
  parameters, in degrees where the source converts. `sqrt` is constrained
  only by `Common.IsSqrt`: a non-negative result whose square is the
  argument.
- `float()` is a `string -> Option<real>` parameter, and `math.isfinite` a
  `real -> bool` parameter.
- A combobox choice arrives as the index `current()` returns.

Error paths the code has, and the model keeps:
- xd3.py, xd2.py and hola.py divide by zero in the layout for a zero
  longest side or a zero base side; the model raises `ZeroDivisionError`.
  In hola.py every handler ends with that `draw`, so a delivered triangle
  with c = 0 makes the handler raise after its state updates
  (`Session.Redraw`); hola.py's `round(c, 3)` can produce such a c.
- hola.py regenerates by recursion with no bound of its own
  (`HolaSampler.Unbounded`); Python's recursion limit would end a long
  enough run of rejections with a `RecursionError` after about 1000 nested
  calls.
- hola.py stores the new triangle before its mode lookup can raise
  (`Session.HolaOutOfRangeDesyncs`).
- xd2.py's answer check stops with a Tk `TclError` at the first non-blank
  entry (`Answers.CheckWithTranscript`).
- xd3.py's "Mostrar solución" clears the information panel without drawing
  it again, destroying the answer entries embedded in it; until the next
  draw, checking answers with a hidden key raises a Tk `TclError` before any
  popup (`Session.StepXd3` clears `panelDrawn`, `Answers.CheckWithPopup`
  raises when it is off).
- A handler that raises does not end the session: Tk reports the exception
  and keeps dispatching events on the state as assigned
  (`Session.RunHola`).

## Model

| member | source | states |
|---|---|---|
| Common.Clamp | xd3.py:19 | `max(-1.0, min(1.0, v))` lies in [-1, 1], is v itself inside the interval, and the nearer bound outside it |
| Common.Max3 | xd3.py:286 | `max(a, b, c)` is at least each argument and equals one of them |
| Measures.Select | xd3.py:96-125 | every mode splits the six keys into revealed and hidden ones: disjoint, covering all six, no key hidden twice, each revealed value the stored one; the hidden list is empty exactly for indices outside 0..3 (same code in xd.py:88-117 and xd2.py:87-116) |
| Measures.ModeTable | xd3.py:101-123 | the exact revealed sets and hidden lists of modes 0-3, and reveal-all for any other index |
| Measures.SelectIndexed | hola.py:124 | hola.py's lookup `MODOS[modo_index]` raises IndexError exactly for indices outside -5..4; otherwise the split is the same as the other variants' |
| Measures.IndexedAgreesInsideCatalogue | hola.py:113-156 | for indices 0..4 hola.py agrees with the other variants; at 5 and above it raises where they reveal everything |
| Trig.CosineArgument | xd.py:15-19 | None exactly when `2ab = 0`; otherwise the ratio clamped into [-1, 1], unchanged when already inside |
| Trig.LawOfCosinesAngle | xd.py:15-20 | None exactly when a or b is zero; otherwise `acos` of an argument in [-1, 1] |
| Trig.CosineClampInactive | xd3.py:15-20 | for sides obeying the strict triangle inequality the ratio is strictly inside (-1, 1), so the clamp never changes it |
| Trig.SineArgument | hola.py:29-37 | None exactly when `sin A = 0`; ZeroDivisionError exactly when `sin A ≠ 0` and `a = 0`; otherwise `b·sin A / a` when it lies in [-1, 1], -1 when it is at most -1 and 1 when it is at least 1 |
| Trig.LawOfSinesAngle | hola.py:29-38 | raises exactly when the argument computation does, None exactly when `sin A = 0`, otherwise `asin` of a value in [-1, 1] |
| Trig.SineArgumentRecoversSine | hola.py:34-38 | on sides built by the Law of Sines the argument handed to `asin` is `sin B` itself |
| Sampler.Attempt | xd3.py:26-49 | `rectangulo` never rejects and sets B = 90; `agudo` rejects exactly when C ≤ 0 or C ≥ 90; `obtuso` exactly when C ≤ 0; any other type exactly when C ≤ 5; an accepted triple sums to 180 |
| Sampler.AcceptedConforms | xd3.py:27-48 | an accepted in-range draw is a valid triangle of the requested type (right, all acute, A obtuse, or C > 5) |
| Sampler.FirstAccepted | xd3.py:51-55 | finds the first accepted attempt among the first 30; every earlier attempt was rejected |
| Sampler.SampleAngles | xd3.py:51-60 | the triple used is the first accepted one of at most 30 attempts, or (50, 60, 70) when all 30 are rejected; it sums to 180 |
| Sampler.FirstAcceptedUsesThirty | xd3.py:52-55 | draws past the 30th never change which attempt is chosen |
| Sampler.SampleUsesThirty | xd.py:51-58 | two draw sequences that agree on their first 30 entries give the same triple |
| Sampler.SampleConforms | xd.py:26-58 | with in-range draws the triple has the requested type, except that an obtuse request may get the fallback; a right request uses the first draw |
| Sampler.FallbackShape | xd2.py:55-56 | (50, 60, 70) is a valid acute triangle but neither right nor obtuse; a right request never reaches it, so only an obtuse request can receive this non-obtuse fallback |
| Sampler.Generate | xd2.py:59-65 | a generated triangle sums to 180 and has `b = (a/sin A)·sin B`, `c = (a/sin A)·sin C` with `sin A ≠ 0`; None only when every supplied round hit `sin A = 0` |
| Sampler.SineRatiosAgree | xd2.py:63-65 | `a/sin A = b/sin B = c/sin C` wherever those sines are non-zero |
| Sampler.GenerateFirstRound | xd3.py:60-74 | with in-range draws and a sine positive on (0, 180) no restart happens; the base side is the drawn one, the angles are the sampled ones and all three sides are positive |
| HolaSampler.Decide | hola.py:51-79 | the per-type decision of one call: `rectangulo` sets B = 90; `obtuso` regenerates as `aleatorio` exactly when C ≤ 0; `aleatorio` regenerates itself exactly when C ≤ 5; as written, `agudo` always accepts, with the re-drawn B when the first B left C ≥ 90 and the first B otherwise; re-checked, `agudo` regenerates exactly when both B's leave C ≥ 90; every other accepted B is the drawn one, A is the first draw, and accepted triples sum to 180 |
| HolaSampler.HolaGenerate | hola.py:43-89 | a produced triangle sums to 180 and its sides follow the Law of Sines; a `rectangulo` request gets B = 90, an `aleatorio` one C > 5, and an `obtuso` one C > 0, also through its `aleatorio` fallback |
| HolaSampler.HolaGenerateUsesStep | hola.py:51-82 | the produced triangle's side a is some call's drawn side times the scale, and its angle A that call's first draw |
| HolaSampler.AcuteCanBeObtuse | hola.py:56-64 | an in-range acute draw (A 20, B 30, re-drawn B 20) is accepted as (20, 20, 140), which is not acute |
| HolaSampler.AsWrittenAcuteIsTriangle | hola.py:56-64 | what the as-written acute branch does guarantee: a valid triangle with A and B acute |
| HolaSampler.RecheckedAcuteIsAcute | hola.py:57-64 | with the re-drawn B re-checked, every accepted acute triple is acute |
| HolaSampler.RecheckedGenerateIsAcute | hola.py:56-64 | the corrected generator's acute requests yield acute triangles after any number of regenerations |
| HolaSampler.RejectedForever | hola.py:73-79 | a run of in-range `aleatorio` draws that are all rejected never produces a triangle |
| HolaSampler.Unbounded | hola.py:78-79 | for every n there are n in-range draws after which no triangle has been produced: no bound on the recursion |
| HolaSampler.ObtuseFallsBackToFree | hola.py:65-72 | a rejected obtuse candidate continues exactly as an `aleatorio` request on the remaining draws |
| Answers.Strip | xd3.py:190 | `str.strip()`: the result is the stretch of the input after its leading blanks, every character dropped after it is blank, the result is empty exactly for all-blank text and otherwise non-blank at both ends, and text already trimmed is returned unchanged |
| Answers.StripIdempotent | xd3.py:190 | stripping twice gives the same text as stripping once |
| Answers.Judge | xd3.py:192-211 | not entered exactly for empty text; not a number exactly when `float()` fails; correct exactly when `abs(val - real) < 0.1`; otherwise incorrect with the true value |
| Answers.CountCorrectReachesTotal | xd3.py:214 | the correct count equals the total exactly when every verdict is correct |
| Answers.Tally | xd3.py:185-211 | every hidden key is judged in order, none skipped after a bad entry, and the count equals the total exactly when every answer is within tolerance |
| Answers.CorrectIffWithin | xd3.py:203-208 | a key counts as correct exactly when its stripped entry parses to a value within 0.1 of the stored one |
| Answers.CheckWithPopup | xd3.py:181-218 | nothing happens with no hidden key; with a hidden key and the panel's entries destroyed, the first `get()` raises TclError and no popup appears; otherwise the success popup appears exactly when every hidden key is answered within tolerance, and the error popup lists one line per key, in order |
| Answers.Transcript | xd2.py:199-229 | a header, one line per message in order, and the "Perfecto" line exactly when asked for |
| Answers.Written | xd2.py:205-226 | the verdict lines xd2.py writes run up to and including the first verdict other than "not entered" |
| Answers.WrittenExample | xd2.py:205-226 | for c, B, C answered "1", "", "" one line is written; for two blank entries both are |
| Answers.CheckWithTranscript | xd2.py:195-229 | as written: nothing with no hidden key; otherwise the header and the verdict lines up to the first non-blank entry, where `config(fg=…)` on a `ttk.Entry` raises TclError; it raises exactly when some entry is non-blank, and the "Perfecto" line is never written |
| Answers.CheckWithTranscriptCorrected | xd2.py:195-229 | with a recolouring the entries accept: nothing with no hidden key; otherwise exactly a header, one verdict line per hidden key in order, and then the "Perfecto" line exactly when every answer is within tolerance, with nothing else |
| Answers.JudgeExamples | xd2.py:218-226 | against 5.0: "5.04" is correct, "5.2" incorrect, "abc" not a number, "" not entered |
| Answers.StripExamples | xd2.py:206 | surrounding blanks are dropped, and all-blank text becomes empty |
| Layout.FitScale | xd3.py:285-288 | the fit scale raises ZeroDivisionError exactly for a zero longest side; otherwise it is non-zero, and positive for a positive longest side |
| Layout.FitScaleFillsHeight | xd.py:263-269 | on the 520×420 canvas with margin 40 the height bounds the scale, so the longest side spans 0.9·340 pixels |
| Layout.Apex | xd3.py:306-314 | the apex computed with the clamped height² never lies below the baseline |
| Layout.ApexOnBothCircles | xd.py:285-297 | when no clamping is needed, the apex is at distance `c_len` from B and `b_len` from C |
| Layout.HeightSqPositive | xd3.py:308-310 | for sides obeying the strict triangle inequality the height² is positive, so the clamp never fires |
| Layout.PlaceOn | xd3.py:299-316 | the shared construction divides by zero exactly for an empty base; otherwise C lies `d` to the right of B on its line, and A is not below B |
| Layout.PlaceOnRealises | xd3.py:299-316 | for lengths obeying the triangle inequality the construction succeeds with \|BC\| = d and \|CA\|, \|AB\| the two radii |
| Layout.Scale | xd.py:263-269 | xd.py's scale is 1 for a zero longest side and otherwise the fit scale; it is never zero |
| Layout.Scaled | xd.py:271-274 | the pixel lengths are the sides times the scale, zero exactly when the side is |
| Layout.ScaledIsTriangle | xd.py:271-274 | a genuine triangle stays one after scaling, whichever side is the base |
| Layout.PlaceUnguarded | xd3.py:278-316 | raises ZeroDivisionError exactly for a zero longest side or a zero side a; otherwise B and C lie on y = 380, centred (Bx + Cx = 520), `a_len` apart, and A is not below them (same code in xd2.py:294-323) |
| Layout.UnguardedSidesMatch | xd2.py:294-323 | for a genuine triangle the drawn sides have lengths `a_len`, `b_len` and `c_len` on BC, CA and AB |
| Layout.FallbackApex | xd.py:299-302 | the fallback apex lies half-way along the divisor, raised by the larger of 40 pixels and half of each of `b_len` and `c_len` |
| Layout.PlaceGuarded | xd.py:256-305 | never raises; the base is centred on y = 380 with length `a_len`; the scale is 1 for a zero longest side; A is never below the baseline, also on the fallback path, where for a non-zero base it sits over the middle of BC; A is the computed apex (divisor `a_len`, or 1e-6 for a zero base) when both its coordinates are finite, and exactly `FallbackApex` of that divisor otherwise |
| Layout.GuardedAgreesWithUnguarded | xd.py:282-302 | where the unguarded code returns and coordinates are finite, xd.py's guards change nothing |
| Layout.GuardedSurvivesZeroBase | xd.py:282-283 | for a zero side a the unguarded code raises, while xd.py draws B and C at the canvas centre |
| Layout.PlaceHola | hola.py:237-258 | raises exactly for a zero longest side or zero c (the triangles `HolaDrawFails` names); otherwise B is (40, 380) and C lies `c·escala` to its right, with A not below the base |
| Layout.HolaSidesAsDrawn | hola.py:243-258 | what hola.py draws: \|BC\| is `c_len`, \|CA\| is `a_len` and \|AB\| is `b_len` |
| Layout.HolaMislabelsSides | hola.py:279-283 | for a 3-4-5 triangle the segment labelled a (BC) is not `a_len` long |
| Layout.PlaceHolaCorrected | hola.py:243-258 | the corrected baseline B–C of length `a·escala`, with the same error cases and bounds |
| Layout.HolaCorrectedSidesMatch | hola.py:279-283 | with the corrected baseline each label sits on a side of its own length |
| Session.Initial | xd.py:129-134 | the initial state has mode 1, the first generated triangle, the split in step with it, both flags off, and the panel drawn |
| Session.StepXd | xd.py:168-217 | xd.py ignores a negative combobox index and otherwise stores it; a new triangle clears both flags; showing the solution hides the hints; toggling hints flips them and hides the solution; each handler keeps the mode, triangle and flags it does not set; showing the solution leaves the panel cleared, every other handler redraws it; the split stays in step and the flags never both hold |
| Session.RunXd | xd.py:168-217 | the handlers run in order on the state the previous one left; the triangle shown is the last one delivered, or the initial one when none was |
| Session.XdInvariant | xd.py:168-217 | over any sequence of events the split stays in step and solution and hints never show together |
| Session.XdModeNonNegative | xd.py:168-173 | the stored mode stays non-negative over any sequence of events |
| Session.StepXd3 | xd3.py:222-244 | xd3.py stores any combobox index, keeps the flags on a new triangle, shows the solution with the hints off, and its hint button changes no state; showing the solution keeps the triangle and mode and leaves the panel cleared, a mode choice or new triangle redraws it, and the split stays in step (same code in xd2.py:238-250) |
| Session.RunXd3 | xd3.py:222-244 | the handlers run in order; the triangle shown is the last one delivered, or the initial one when none was |
| Session.Xd3Invariant | xd3.py:232-234 | `show_hints` is never set and the split stays in step over any sequence of events |
| Session.NegativeIndexDiffers | xd3.py:222-225 | a cleared combobox (-1) reveals everything in xd3.py, while xd.py leaves the state unchanged |
| Session.Redraw | hola.py:230-258 | `draw` raises ZeroDivisionError exactly for a triangle hola.py cannot place, leaving the state as it was; otherwise only the panel is marked drawn |
| Session.Renew | hola.py:210-215 | the new triangle is stored first; the mode lookup raises IndexError exactly for an out-of-range mode, leaving the old split, flags and panel; otherwise the split is in step and both flags are off, and `draw` then raises ZeroDivisionError exactly when the new triangle cannot be placed, the panel being drawn exactly when nothing raised |
| Session.StepHola | hola.py:189-228 | choosing a mode stores the index and the new triangle; a new triangle keeps the mode; each toggle flips its flag, clears the other when it turns on and otherwise keeps it, and keeps the mode, triangle and split; IndexError exactly for an out-of-range index, leaving the split and flags; otherwise ZeroDivisionError exactly when the triangle to draw cannot be placed, toggles included; an event with an out-of-range index or an unplaceable triangle always raises; the flags never both hold |
| Session.RunHola | hola.py:186-228 | the handlers run in order and a raise is reported without ending the run; only IndexError and ZeroDivisionError are reported, at most once per event and at least once for every event that raises whatever the state; toggles alone keep the triangle and report nothing, or one error per toggle when it cannot be drawn; the triangle shown is the last one delivered, raise or not |
| Session.RunContinuesAfterRaise | hola.py:210-221 | after an out-of-range mode choice is reported, the next toggle still shows the solution, on the triangle the raising handler stored, adding a ZeroDivisionError exactly when that triangle cannot be drawn |
| Session.HolaInvariant | hola.py:186-228 | with indices the combobox can produce and triangles `draw` can place, no exception is reported, the split stays in step and the flags never both hold |
| Session.ZeroSideRaisesOnToggle | hola.py:217-228 | with side c equal to 0, both toggles raise ZeroDivisionError from `draw` |
| Session.HolaOutOfRangeDesyncs | hola.py:210-212 | an index past the catalogue raises after the new triangle is stored, so the split shown no longer belongs to the triangle |

## Left out

- Widgets, canvas drawing, vertex and side labels, the text of the information panel, messagebox wording, xd3.py's entry colours and the hint strings of `mostrar_pista` are left out: they are output. The one widget state the engine reads, whether xd3.py's embedded entries still exist, is the `panelDrawn` flag.
- `random.uniform` is left out: draws are parameters, with range predicates stating the uniform bounds.
- The behaviour of sin, acos, asin and sqrt is left out: they are parameters. `sqrt` carries the assumption `IsSqrt`; `Sampler.GenerateFirstRound` assumes the sine positive on (0, 180) (`SinePositive`); `Trig.SineArgumentRecoversSine` assumes `sin B` lies in [-1, 1].
- `round(x, 6)` and `round(x, 3)` in `generar_triangulo` are modelled as the identity. The one effect beyond presentation, hola.py's `round(c, 3)` turning a side below 0.0005 into 0.0, is covered in the session model, which accepts any delivered triangle, c = 0 included.
- `float()` parsing is a parameter, and the tolerance 0.1 is the exact real 1/10 rather than its binary float.
- `law_of_cosines_side` (hola.py:15-17) is left out: nothing in the engine calls it.
- hola1.py and hol2.py are not part of this model: they plot random functions and export images, with no engine logic.
- `math.isfinite` is a parameter: Dafny reals are always finite, so the fallback branch of xd.py is reached only through that parameter.
- The triangle inequality of generated sides is not proved: it would need the sine's behaviour beyond positivity. The layout lemmas take it as a precondition.
- Generate: a restart on `sin A = 0` consumes a whole new round. Proofs cover supplied rounds only, and the result is None when they run out.
- HolaGenerate: the recursion runs on a finite sequence of draws, answering None when it runs out, so the model says nothing of what an infinite run would do beyond `Unbounded`.
- Layout.Apex: it does not state that the clamped case puts A exactly on the baseline; only `A.y <= B.y` is stated.
- Answers.CheckWithTranscript: the text panel left in state "normal" after the TclError is user interface and not modelled.
- Session.StepXd: `modo_menu.current(...)` in xd.py's `nuevo_triangulo` only re-selects the combobox entry and is left out.
- Session.StepHola: the `draw` at the end of hola.py's `__init__` is not modelled as raising; `Session.Initial` always returns a state, as if the first triangle could be drawn.
- Session.StepXd3: xd3.py's `draw` divides by zero for a zero longest side or a zero side a before `_update_info_panel`, which would leave `panelDrawn` as it was; the model sets it anyway, since xd3.py's generator draws a between 4 and 12 times the scale and never delivers such a triangle.
- Tk's traceback printing is left out; `Session.RunHola` records each reported exception and goes on with the state as assigned before the raise.

## Findings

| source | as written | input that shows it | evidently intended | confidence | as-written member | corrected member |
|---|---|---|---|---|---|---|
| hola.py:56-64 | the acute branch re-draws B once when C ≥ 90 and keeps the result unchecked | A = 20, B = 30 gives C = 130; the re-drawn B = 20 gives C = 140 | every angle below 90, as the comment "todos < 90" says | not executed | HolaSampler.AcuteCanBeObtuse | HolaSampler.RecheckedGenerateIsAcute |
| hola.py:243-258 | the baseline B–C has length `c·escala`, with radius `b·escala` at B and `a·escala` at C, while hola.py:279-283 labels BC as a, AC as b and AB as c | a = 3, b = 4, c = 5: the segment labelled a is drawn 5 units long | BC of length `a·escala`, radius `c·escala` at B and `b·escala` at C, as in the other variants | not executed | Layout.HolaMislabelsSides | Layout.HolaCorrectedSidesMatch |
| xd2.py:215-226 | `self.inputs[k].config(fg=…)` on the `ttk.Entry` widgets built by xd2.py:188, which have no `fg` option, so Tk raises TclError after the first non-blank entry's line and before `correctos` is incremented | unknown c, B, C with entries "1", "", "": the header and the line for c are written, then TclError; the "Perfecto" line can never appear | recolour the entry (as xd3.py's `tk.Entry` allows) and finish the loop | not executed (reading of Tk's option set) | Answers.CheckWithTranscript | Answers.CheckWithTranscriptCorrected |

=== FILE: answers.dfy ===
/** `verificar_respuestas` of xd3.py (result shown in a popup) and xd2.py
    (result appended to the text panel). Each hidden key's entry text is
    stripped and judged; `parse` stands for Python's `float()`, answering
    None where `float()` raises. */
module Answers {
  import opened Common
  import opened Measures

  /** The characters Python's `str.isspace` accepts. */
  predicate IsSpace(ch: char) {
    var n := ch as int;
    || n == 32 || 9 <= n <= 13 || 28 <= n <= 31 || n == 0x85 || n == 0xA0 || n == 0x1680
    || 0x2000 <= n <= 0x200A || n == 0x2028 || n == 0x2029 || n == 0x202F || n == 0x205F
    || n == 0x3000
  }

  /** The number of blanks `lstrip` removes. */
  function LeadingBlanks(s: string): (n: nat)
    ensures n <= |s|
    ensures forall i :: 0 <= i < n ==> IsSpace(s[i])
    ensures n == |s| || !IsSpace(s[n])
    decreases |s|
  {
    if 0 < |s| && IsSpace(s[0]) then 1 + LeadingBlanks(s[1..]) else 0
  }

  /** The number of blanks `rstrip` removes. */
  function TrailingBlanks(s: string): (n: nat)
    ensures n <= |s|
    ensures forall i :: |s| - n <= i < |s| ==> IsSpace(s[i])
    ensures n == |s| || !IsSpace(s[|s| - n - 1])
    decreases |s|
  {
    if 0 < |s| && IsSpace(s[|s| - 1]) then 1 + TrailingBlanks(s[..|s| - 1]) else 0
  }

  /** Python's `str.strip()` with no argument: the text between the leading
      and the trailing blanks. */
  function Strip(s: string): (r: string)
    ensures |r| <= |s|
    ensures r == [] <==> forall i :: 0 <= i < |s| ==> IsSpace(s[i])
    ensures r != [] ==> !IsSpace(r[0]) && !IsSpace(r[|r| - 1])
    ensures (s == [] || (!IsSpace(s[0]) && !IsSpace(s[|s| - 1]))) ==> r == s
    ensures LeadingBlanks(s) + |r| <= |s|
    ensures forall i :: 0 <= i < |r| ==> r[i] == s[LeadingBlanks(s) + i]
    ensures forall i :: LeadingBlanks(s) + |r| <= i < |s| ==> IsSpace(s[i])
  {
    var l := LeadingBlanks(s);
    var rest := s[l..];
    var n := TrailingBlanks(rest);
    var r := rest[..|rest| - n];
    assert |r| == |s| - l - n;
    assert forall i :: 0 <= i < |r| ==> r[i] == s[l + i];
    assert r == [] ==> l == |s| by {
      if l < |s| {
        assert rest[0] == s[l];
      }
    }
    assert (forall i :: 0 <= i < |s| ==> IsSpace(s[i])) ==> l == |s|;
    assert r != [] ==> !IsSpace(r[|r| - 1]) by {
      if r != [] {
        assert r[|r| - 1] == rest[|rest| - n - 1];
      }
    }
    assert s != [] && !IsSpace(s[0]) ==> l == 0 && rest == s;
    assert s != [] && !IsSpace(s[|s| - 1]) && rest == s ==> n == 0;
    assert forall i :: l + |r| <= i < |s| ==> IsSpace(s[i]) by {
      forall i | l + |r| <= i < |s| ensures IsSpace(s[i]) {
        assert s[i] == rest[i - l];
      }
    }
    r
  }

  /** Stripping twice is stripping once. */
  lemma StripIdempotent(s: string)
    ensures Strip(Strip(s)) == Strip(s)
  {
  }

  /** The absolute tolerance within which an answer counts as correct. */
  const Tolerance: real := 0.1

  /** One hidden key's verdict; `Incorrect` carries the true value shown. */
  datatype Verdict = NotEntered | NotANumber | Correct(given: real) | Incorrect(truth: real)

  /** The verdict on one stripped entry against the stored value. */
  function Judge(entry: string, parse: string -> Option<real>, truth: real): (v: Verdict)
    ensures v == NotEntered <==> entry == []
    ensures v == NotANumber <==> entry != [] && parse(entry).None?
    ensures v.Correct? <==> entry != [] && parse(entry).Some? && Abs(parse(entry).value - truth) < Tolerance
    ensures v.Correct? ==> v.given == parse(entry).value
    ensures v.Incorrect? ==> v.truth == truth && parse(entry).Some? && Tolerance <= Abs(parse(entry).value - truth)
  {
    if entry == [] then NotEntered
    else match parse(entry)
      case None => NotANumber
      case Some(val) => if Abs(val - truth) < Tolerance then Correct(val) else Incorrect(truth)
  }

  /** Every hidden key has an entry widget, as `self.inputs[k]` requires. */
  predicate HasEntries(unknown: seq<Key>, entries: map<Key, string>) {
    forall k :: k in unknown ==> k in entries
  }

  /** The learner's answer for `k`, once stripped, is a number within the
      tolerance of the stored value. */
  predicate AnsweredWithin(t: Triangle, entries: map<Key, string>, parse: string -> Option<real>, k: Key)
    requires k in entries
  {
    var e := Strip(entries[k]);
    e != [] && parse(e).Some? && Abs(parse(e).value - Value(t, k)) < Tolerance
  }

  function VerdictOf(t: Triangle, entries: map<Key, string>, parse: string -> Option<real>, k: Key): Verdict
    requires k in entries
  {
    Judge(Strip(entries[k]), parse, Value(t, k))
  }

  /** `correctos`: the number of correct verdicts. */
  function CountCorrect(vs: seq<Verdict>): (n: nat)
    ensures n <= |vs|
    decreases |vs|
  {
    if vs == [] then 0
    else CountCorrect(vs[..|vs| - 1]) + (if vs[|vs| - 1].Correct? then 1 else 0)
  }

  /** The count reaches the total exactly when every verdict is correct. */
  lemma {:induction false} CountCorrectReachesTotal(vs: seq<Verdict>)
    ensures CountCorrect(vs) == |vs| <==> forall i :: 0 <= i < |vs| ==> vs[i].Correct?
    decreases |vs|
  {
    if vs != [] {
      var init := vs[..|vs| - 1];
      CountCorrectReachesTotal(init);
      assert forall i :: 0 <= i < |init| ==> init[i] == vs[i];
      if vs[|vs| - 1].Correct? {
        if forall i :: 0 <= i < |init| ==> init[i].Correct? {
          assert forall i :: 0 <= i < |vs| ==> vs[i].Correct? by {
            forall i | 0 <= i < |vs| ensures vs[i].Correct? {
              if i < |init| { assert init[i] == vs[i]; }
            }
          }
        }
      }
    }
  }

  /** The loop of `verificar_respuestas`: every hidden key is judged, in
      order, none is skipped, and `correctos` counts the correct ones. */
  method Tally(t: Triangle, unknown: seq<Key>, entries: map<Key, string>, parse: string -> Option<real>)
    returns (verdicts: seq<Verdict>, correct: nat)
    requires HasEntries(unknown, entries)
    ensures |verdicts| == |unknown|
    ensures forall i :: 0 <= i < |unknown| ==> verdicts[i] == VerdictOf(t, entries, parse, unknown[i])
    ensures correct == CountCorrect(verdicts)
    ensures correct == |unknown| <==> forall i :: 0 <= i < |unknown| ==> AnsweredWithin(t, entries, parse, unknown[i])
  {
    verdicts := [];
    correct := 0;
    var i := 0;
    while i < |unknown|
      invariant 0 <= i <= |unknown|
      invariant |verdicts| == i
      invariant forall j :: 0 <= j < i ==> verdicts[j] == VerdictOf(t, entries, parse, unknown[j])
      invariant correct == CountCorrect(verdicts)
    {
      var v := VerdictOf(t, entries, parse, unknown[i]);
      if v.Correct? {
        correct := correct + 1;
      }
      assert (verdicts + [v])[..i] == verdicts;
      verdicts := verdicts + [v];
      i := i + 1;
    }
    CountCorrectReachesTotal(verdicts);
    forall j | 0 <= j < |unknown|
      ensures verdicts[j].Correct? <==> AnsweredWithin(t, entries, parse, unknown[j])
    {
      CorrectIffWithin(t, entries, parse, unknown[j]);
    }
  }

  /** A correct verdict is exactly an answer within the tolerance. */
  lemma CorrectIffWithin(t: Triangle, entries: map<Key, string>, parse: string -> Option<real>, k: Key)
    requires k in entries
    ensures VerdictOf(t, entries, parse, k).Correct? <==> AnsweredWithin(t, entries, parse, k)
  {
  }

  /** One line of results: the key and its verdict. */
  datatype Message = Message(key: Key, verdict: Verdict)

  function Messages(unknown: seq<Key>, verdicts: seq<Verdict>): (ms: seq<Message>)
    requires |verdicts| == |unknown|
    ensures |ms| == |unknown|
    ensures forall i :: 0 <= i < |unknown| ==> ms[i] == Message(unknown[i], verdicts[i])
  {
    seq(|unknown|, i requires 0 <= i < |unknown| => Message(unknown[i], verdicts[i]))
  }

  /** xd3.py's final popup: a success box, or an error box listing every line. */
  datatype Popup = AllCorrect | Errors(messages: seq<Message>)

  /** xd3.py's `verificar_respuestas`: nothing when no key is hidden; else
      the success popup exactly when every hidden key is answered within
      the tolerance, and otherwise the error popup with one line per key.
      The entries sit inside the information panel; `live` says whether
      they are still there (`Session.App.panelDrawn`). Once
      `toggle_solution` has cleared the panel they are destroyed, and the
      first `get()` raises a TclError before any popup. */
  method CheckWithPopup(t: Triangle, unknown: seq<Key>, entries: map<Key, string>, parse: string -> Option<real>, live: bool)
    returns (popup: Option<Popup>, raised: Option<PyError>)
    requires HasEntries(unknown, entries)
    ensures raised.Some? <==> unknown != [] && !live
    ensures raised.Some? ==> raised.value == TclError && popup.None?
    ensures popup.None? <==> unknown == [] || !live
    ensures popup == Some(AllCorrect) <==>
              unknown != [] && live && forall k :: k in unknown ==> AnsweredWithin(t, entries, parse, k)
    ensures popup.Some? && popup.value.Errors? ==>
              && |popup.value.messages| == |unknown|
              && forall i :: 0 <= i < |unknown| ==>
                   popup.value.messages[i] == Message(unknown[i], VerdictOf(t, entries, parse, unknown[i]))
  {
    if unknown == [] {
      return None, None;
    }
    if !live {
      return None, Some(TclError);
    }
    raised := None;
    var verdicts, correct := Tally(t, unknown, entries, parse);
    AllWithinByIndex(t, unknown, entries, parse);
    if correct == |unknown| {
      popup := Some(AllCorrect);
    } else {
      popup := Some(Errors(Messages(unknown, verdicts)));
    }
  }

  lemma AllWithinByIndex(t: Triangle, unknown: seq<Key>, entries: map<Key, string>, parse: string -> Option<real>)
    requires HasEntries(unknown, entries)
    ensures (forall k :: k in unknown ==> AnsweredWithin(t, entries, parse, k)) <==>
            (forall i :: 0 <= i < |unknown| ==> AnsweredWithin(t, entries, parse, unknown[i]))
  {
  }

  /** A line xd2.py appends to the text panel. */
  datatype Line = ResultsHeader | ResultLine(message: Message) | PerfectLine

  /** The lines xd2.py writes for a non-empty check: a header, one line per
      message in order, and the "Perfecto" line when `perfect` holds. */
  function Transcript(ms: seq<Message>, perfect: bool): (lines: seq<Line>)
    ensures |lines| == |ms| + 1 + (if perfect then 1 else 0)
    ensures lines[0] == ResultsHeader
    ensures forall i :: 0 <= i < |ms| ==> lines[i + 1] == ResultLine(ms[i])
    ensures PerfectLine in lines <==> perfect
  {
    var body := [ResultsHeader] + seq(|ms|, i requires 0 <= i < |ms| => ResultLine(ms[i]));
    assert forall i :: 0 <= i < |body| ==> body[i] != PerfectLine;
    body + (if perfect then [PerfectLine] else [])
  }

  /** The verdicts of the hidden keys, in order. */
  function VerdictsOf(t: Triangle, unknown: seq<Key>, entries: map<Key, string>, parse: string -> Option<real>)
    : (vs: seq<Verdict>)
    requires HasEntries(unknown, entries)
    ensures |vs| == |unknown|
    ensures forall i :: 0 <= i < |unknown| ==> vs[i] == VerdictOf(t, entries, parse, unknown[i])
  {
    seq(|unknown|, i requires 0 <= i < |unknown| => VerdictOf(t, entries, parse, unknown[i]))
  }

  /** How many verdict lines xd2.py writes before it stops: every verdict
      but "not entered" is followed by a recolouring of its entry, which
      raises, so the lines run up to and including the first such verdict. */
  function Written(vs: seq<Verdict>): (n: nat)
    ensures n <= |vs|
    ensures vs != [] ==> 1 <= n
    ensures forall j :: 0 <= j < n - 1 ==> vs[j] == NotEntered
    ensures n < |vs| ==> vs[n - 1] != NotEntered
    decreases |vs|
  {
    if vs == [] then 0
    else if vs[0] != NotEntered then 1
    else 1 + Written(vs[1..])
  }

  /** Answers to c, B and C of "1", "" and "": one line is written before
      the handler stops. */
  lemma WrittenExample()
    ensures Written([Incorrect(2.0), NotEntered, NotEntered]) == 1
    ensures Written([NotEntered, NotEntered]) == 2
  {
  }

  /** xd2.py's `verificar_respuestas` as written. Its entries are `ttk.Entry`
      widgets, which have no `fg` option, so the first `config(fg=…)` raises
      a TclError: after the verdict line of the first key with a non-blank
      entry the handler stops. The correct count is only incremented after
      that call, so the "Perfecto" line is never written. */
  method CheckWithTranscript(t: Triangle, unknown: seq<Key>, entries: map<Key, string>, parse: string -> Option<real>)
    returns (lines: seq<Line>, raised: Option<PyError>)
    requires HasEntries(unknown, entries)
    ensures unknown == [] ==> lines == [] && raised.None?
    ensures unknown != [] ==>
              && |lines| == Written(VerdictsOf(t, unknown, entries, parse)) + 1
              && lines[0] == ResultsHeader
              && forall j :: 0 <= j < |lines| - 1 ==>
                   lines[j + 1] == ResultLine(Message(unknown[j], VerdictOf(t, entries, parse, unknown[j])))
    ensures raised.None? <==> forall k :: k in unknown ==> Strip(entries[k]) == []
    ensures raised.Some? ==> raised.value == TclError
    ensures PerfectLine !in lines
  {
    if unknown == [] {
      return [], None;
    }
    var vs := VerdictsOf(t, unknown, entries, parse);
    lines := [ResultsHeader];
    var i := 0;
    while i < |unknown|
      invariant 0 <= i <= |unknown|
      invariant |lines| == i + 1 && lines[0] == ResultsHeader
      invariant forall j :: 0 <= j < i ==> lines[j + 1] == ResultLine(Message(unknown[j], vs[j]))
      invariant forall j :: 0 <= j < i ==> vs[j] == NotEntered
      invariant PerfectLine !in lines
    {
      var v := vs[i];
      lines := lines + [ResultLine(Message(unknown[i], v))];
      if v != NotEntered {
        WrittenStopsAt(vs, i);
        NotEnteredIffBlank(t, entries, parse, unknown[i]);
        return lines, Some(TclError);
      }
      i := i + 1;
    }
    WrittenStopsAt(vs, i);
    forall k | k in unknown ensures Strip(entries[k]) == [] {
      var j :| 0 <= j < |unknown| && unknown[j] == k;
      NotEnteredIffBlank(t, entries, parse, k);
    }
    raised := None;
  }

  /** With every verdict before `i` "not entered", the lines stop at `i`
      when that verdict is another one, and run to the end when `i` is it. */
  lemma WrittenStopsAt(vs: seq<Verdict>, i: nat)
    requires i <= |vs| && forall j :: 0 <= j < i ==> vs[j] == NotEntered
    ensures i < |vs| && vs[i] != NotEntered ==> Written(vs) == i + 1
    ensures i == |vs| ==> Written(vs) == |vs|
  {
  }

  /** A key is "not entered" exactly when its entry is blank. */
  lemma NotEnteredIffBlank(t: Triangle, entries: map<Key, string>, parse: string -> Option<real>, k: Key)
    requires k in entries
    ensures VerdictOf(t, entries, parse, k) == NotEntered <==> Strip(entries[k]) == []
  {
  }

  /** xd2.py's `verificar_respuestas` with a recolouring the entries accept
      (as xd3.py's `tk.Entry` widgets do): nothing when no key is hidden;
      else a header, one line per hidden key in order, and the "Perfecto"
      line exactly when every hidden key is answered within the tolerance. */
  method CheckWithTranscriptCorrected(t: Triangle, unknown: seq<Key>, entries: map<Key, string>, parse: string -> Option<real>)
    returns (lines: seq<Line>)
    requires HasEntries(unknown, entries)
    ensures unknown == [] ==> lines == []
    ensures unknown != [] ==> |lines| == |unknown| + (if PerfectLine in lines then 2 else 1) && lines[0] == ResultsHeader
    ensures PerfectLine in lines ==> lines[|unknown| + 1] == PerfectLine
    ensures unknown != [] ==> forall i :: 0 <= i < |unknown| ==>
              lines[i + 1] == ResultLine(Message(unknown[i], VerdictOf(t, entries, parse, unknown[i])))
    ensures PerfectLine in lines <==>
              unknown != [] && forall k :: k in unknown ==> AnsweredWithin(t, entries, parse, k)
  {
    if unknown == [] {
      return [];
    }
    var verdicts, correct := Tally(t, unknown, entries, parse);
    AllWithinByIndex(t, unknown, entries, parse);
    var ms := Messages(unknown, verdicts);
    lines := Transcript(ms, correct == |unknown|);
  }

  /** The worked cases: against a stored 5.0, "5.04" is correct, "5.2" is
      incorrect, "abc" is not a number and an empty entry is not entered. */
  lemma JudgeExamples(parse: string -> Option<real>)
    requires parse("5.04") == Some(5.04) && parse("5.2") == Some(5.2) && parse("abc") == None
    ensures Judge("5.04", parse, 5.0) == Correct(5.04)
    ensures Judge("5.2", parse, 5.0) == Incorrect(5.0)
    ensures Judge("abc", parse, 5.0) == NotANumber
    ensures Judge("", parse, 5.0) == NotEntered
  {
  }

  /** Surrounding blanks are dropped and inner text is kept. */
  lemma StripExamples()
    ensures Strip(" 5.04 ") == "5.04"
    ensures Strip("\t\n") == ""
  {
    assert LeadingBlanks(" 5.04 ") == 1 by {
      assert " 5.04 "[1..] == "5.04 ";
    }
    assert TrailingBlanks("5.04 ") == 1 by {
      assert "5.04 "[..4] == "5.04";
    }
  }
}

=== FILE: common.dfy ===
/** Small shared vocabulary: optional values, Python-style raised errors,
    the `min`/`max` built-ins over reals, and the one property assumed of
    the square root the layout code calls. */
module Common {

  /** A value that may be absent (Python's `None`). */
  datatype Option<+T> = None | Some(value: T)

  /** The exceptions the engine can raise on some inputs; `TclError` is
      what Tk raises for a widget option it does not know. */
  datatype PyError = ZeroDivisionError | IndexError | TclError

  /** A Python call either returns a value or raises an exception. */
  datatype Outcome<+T> = Returns(value: T) | Raises(error: PyError)

  function Min(x: real, y: real): (r: real)
    ensures r <= x && r <= y
    ensures r == x || r == y
  {
    if x <= y then x else y
  }

  function Max(x: real, y: real): (r: real)
    ensures x <= r && y <= r
    ensures r == x || r == y
  {
    if x >= y then x else y
  }

  /** Python's `max(x, y, z)`. */
  function Max3(x: real, y: real, z: real): (r: real)
    ensures x <= r && y <= r && z <= r
    ensures r == x || r == y || r == z
  {
    Max(Max(x, y), z)
  }

  /** Python's `max(lo, min(hi, v))`. */
  function Clamp(lo: real, hi: real, v: real): (r: real)
    requires lo <= hi
    ensures lo <= r <= hi
    ensures lo <= v <= hi ==> r == v
    ensures v < lo ==> r == lo
    ensures hi < v ==> r == hi
  {
    Max(lo, Min(hi, v))
  }

  function Abs(x: real): (r: real)
    ensures 0.0 <= r
    ensures r == x || r == -x
  {
    if x < 0.0 then -x else x
  }

  /** What is assumed of `math.sqrt`: on a non-negative argument it returns
      the non-negative number whose square is that argument. */
  ghost predicate IsSqrt(sqrt: real -> real) {
    forall x :: 0.0 <= x ==> 0.0 <= sqrt(x) && sqrt(x) * sqrt(x) == x
  }
}

=== FILE: hola_sampler.dfy ===
/** `generar_triangulo` of hola.py: no retry loop and no fallback; a
    rejected candidate, or a zero `sin A`, makes the function call itself
    again, so nothing bounds the number of calls. The random values of each
    call arrive as a `Step`; a finite sequence of steps stands for the
    random source, and the model answers None when it runs out. */
module HolaSampler {
  import opened Common
  import opened Measures
  import opened Sampler

  /** The uniform values one call draws: `first` for A, `second` for B, the
      acute branch's re-draw of B, and the base side. */
  datatype Step = Step(first: real, second: real, redraw: real, side: real)

  /** hola.py's ranges. The acute branch bounds B by `89 - A/2`, and the
      obtuse branch draws B up to 70 (60 in the other variants). */
  predicate HolaInRange(shape: Shape, s: Step) {
    match shape
    case Right => 20.0 <= s.first <= 70.0
    case Acute => 20.0 <= s.first <= 70.0 && 20.0 <= s.second <= 89.0 - s.first / 2.0
                  && 20.0 <= s.redraw <= 60.0
    case Obtuse => 91.0 <= s.first <= 140.0 && 10.0 <= s.second <= 70.0
    case Free => 20.0 <= s.first <= 100.0 && 20.0 <= s.second <= 120.0
  }

  /** How the acute branch treats its re-drawn B: `AsWritten` keeps it
      unchecked as hola.py does; `Rechecked` rejects it when C is still at
      least 90, as the comment "todos < 90" intends. */
  datatype AcuteRule = AsWritten | Rechecked

  /** What one call decides before the Law of Sines: use a triple, or call
      `generar_triangulo` again with the given type. */
  datatype Decision = Accept(angles: Angles) | Regenerate(tipo: string)

  function Decide(rule: AcuteRule, tipo: string, s: Step): (r: Decision)
    ensures r.Accept? ==> r.angles.A == s.first && r.angles.A + r.angles.B + r.angles.C == 180.0
    ensures ShapeOf(tipo) == Right ==> r.Accept? && r.angles.B == 90.0
    ensures ShapeOf(tipo) == Acute && rule == AsWritten ==> r.Accept?
    ensures ShapeOf(tipo) == Acute && r.Regenerate? ==> r.tipo == tipo
    ensures ShapeOf(tipo) == Obtuse ==> (r.Regenerate? <==> s.first + s.second >= 180.0)
    ensures ShapeOf(tipo) == Obtuse && r.Regenerate? ==> r.tipo == "aleatorio"
    ensures ShapeOf(tipo) == Free ==> (r.Regenerate? <==> s.first + s.second >= 175.0)
    ensures ShapeOf(tipo) == Free && r.Regenerate? ==> r.tipo == tipo
    ensures r.Accept? && ShapeOf(tipo) != Right && !(ShapeOf(tipo) == Acute && s.first + s.second <= 90.0) ==>
              r.angles.B == s.second
    ensures r.Accept? && ShapeOf(tipo) == Acute && s.first + s.second <= 90.0 ==> r.angles.B == s.redraw
    ensures ShapeOf(tipo) == Acute && rule == Rechecked ==>
              (r.Regenerate? <==> s.first + s.second <= 90.0 && s.first + s.redraw <= 90.0)
  {
    match ShapeOf(tipo)
    case Right =>
      Accept(Angles(s.first, 90.0, 90.0 - s.first))
    case Acute =>
      var C := 180.0 - s.first - s.second;
      if C >= 90.0 then
        var C2 := 180.0 - s.first - s.redraw;
        if rule == Rechecked && C2 >= 90.0 then Regenerate(tipo)
        else Accept(Angles(s.first, s.redraw, C2))
      else Accept(Angles(s.first, s.second, C))
    case Obtuse =>
      var C := 180.0 - s.first - s.second;
      if C <= 0.0 then Regenerate("aleatorio") else Accept(Angles(s.first, s.second, C))
    case Free =>
      var C := 180.0 - s.first - s.second;
      if C <= 5.0 then Regenerate(tipo) else Accept(Angles(s.first, s.second, C))
  }

  /** hola.py's `generar_triangulo(tipo, scale)`. */
  function HolaGenerate(rule: AcuteRule, tipo: string, scale: real, sinDeg: real -> real, steps: seq<Step>)
    : (r: Option<Triangle>)
    ensures r.Some? ==> r.value.A + r.value.B + r.value.C == 180.0
    ensures r.Some? ==> LawOfSines(r.value, sinDeg)
    ensures r.Some? && ShapeOf(tipo) == Right ==> r.value.B == 90.0
    ensures r.Some? && ShapeOf(tipo) == Free ==> 5.0 < r.value.C
    ensures r.Some? && ShapeOf(tipo) == Obtuse ==> 0.0 < r.value.C
    decreases |steps|
  {
    if |steps| == 0 then None
    else
      match Decide(rule, tipo, steps[0])
      case Regenerate(next) => HolaGenerate(rule, next, scale, sinDeg, steps[1..])
      case Accept(g) =>
        var a := steps[0].side * scale;
        var sinA := sinDeg(g.A);
        if sinA == 0.0 then HolaGenerate(rule, tipo, scale, sinDeg, steps[1..])
        else
          var k := a / sinA;
          Some(Triangle(a, k * sinDeg(g.B), k * sinDeg(g.C), g.A, g.B, g.C))
  }

  /** Side a is the call's drawn side times the scale, and angle A its first draw. */
  predicate FromStep(t: Triangle, s: Step, scale: real) {
    t.a == s.side * scale && t.A == s.first
  }

  /** The triangle comes from one of the calls: its side a is that call's
      drawn side times the scale, and its angle A that call's first draw. */
  lemma {:induction false} HolaGenerateUsesStep(rule: AcuteRule, tipo: string, scale: real, sinDeg: real -> real, steps: seq<Step>)
    requires HolaGenerate(rule, tipo, scale, sinDeg, steps).Some?
    ensures var t := HolaGenerate(rule, tipo, scale, sinDeg, steps).value;
            exists i :: 0 <= i < |steps| && FromStep(t, steps[i], scale)
    decreases |steps|, 1
  {
    var t := HolaGenerate(rule, tipo, scale, sinDeg, steps).value;
    match Decide(rule, tipo, steps[0])
    case Regenerate(next) =>
      LaterStep(rule, next, scale, sinDeg, steps);
    case Accept(g) =>
      if sinDeg(g.A) == 0.0 {
        LaterStep(rule, tipo, scale, sinDeg, steps);
      }
  }

  /** A witness among the later calls is a witness among all of them. */
  lemma {:induction false} LaterStep(rule: AcuteRule, tipo: string, scale: real, sinDeg: real -> real, steps: seq<Step>)
    requires 0 < |steps| && HolaGenerate(rule, tipo, scale, sinDeg, steps[1..]).Some?
    ensures var t := HolaGenerate(rule, tipo, scale, sinDeg, steps[1..]).value;
            exists i :: 0 <= i < |steps| && FromStep(t, steps[i], scale)
    decreases |steps|, 0
  {
    var t := HolaGenerate(rule, tipo, scale, sinDeg, steps[1..]).value;
    HolaGenerateUsesStep(rule, tipo, scale, sinDeg, steps[1..]);
    var i :| 0 <= i < |steps[1..]| && FromStep(t, steps[1..][i], scale);
    assert steps[1..][i] == steps[i + 1];
  }

  /** As written, an acute request can produce an obtuse triangle: the
      first B leaves C = 130, and the re-drawn B = 20 leaves C = 140. */
  lemma AcuteCanBeObtuse()
    ensures HolaInRange(Acute, Step(20.0, 30.0, 20.0, 4.0))
    ensures Decide(AsWritten, "agudo", Step(20.0, 30.0, 20.0, 4.0)) == Accept(Angles(20.0, 20.0, 140.0))
    ensures !Conforms(Acute, Angles(20.0, 20.0, 140.0))
  {
  }

  /** What the as-written acute branch does guarantee: a valid triangle
      whose angles A and B are acute; only C can reach 90 or more. */
  lemma AsWrittenAcuteIsTriangle(tipo: string, s: Step)
    requires ShapeOf(tipo) == Acute && HolaInRange(Acute, s)
    ensures Decide(AsWritten, tipo, s).Accept?
    ensures var g := Decide(AsWritten, tipo, s).angles;
            Valid(g) && g.A < 90.0 && g.B < 90.0
  {
  }

  /** With the re-drawn B re-checked, every accepted acute triple is acute. */
  lemma RecheckedAcuteIsAcute(tipo: string, s: Step)
    requires ShapeOf(tipo) == Acute && HolaInRange(Acute, s)
    requires Decide(Rechecked, tipo, s).Accept?
    ensures Conforms(Acute, Decide(Rechecked, tipo, s).angles)
  {
  }

  predicate HolaAllInRange(shape: Shape, steps: seq<Step>) {
    forall i :: 0 <= i < |steps| ==> HolaInRange(shape, steps[i])
  }

  /** The corrected generator keeps its promise over any number of
      regenerations: an acute request yields an acute triangle. */
  lemma {:induction false} RecheckedGenerateIsAcute(tipo: string, scale: real, sinDeg: real -> real, steps: seq<Step>)
    requires ShapeOf(tipo) == Acute && HolaAllInRange(Acute, steps)
    requires HolaGenerate(Rechecked, tipo, scale, sinDeg, steps).Some?
    ensures var t := HolaGenerate(Rechecked, tipo, scale, sinDeg, steps).value;
            Conforms(Acute, Angles(t.A, t.B, t.C))
    decreases |steps|
  {
    assert HolaInRange(Acute, steps[0]);
    assert HolaAllInRange(Acute, steps[1..]) by {
      forall i | 0 <= i < |steps[1..]| ensures HolaInRange(Acute, steps[1..][i]) {
        assert steps[1..][i] == steps[i + 1];
      }
    }
    match Decide(Rechecked, tipo, steps[0])
    case Regenerate(next) =>
      RecheckedGenerateIsAcute(next, scale, sinDeg, steps[1..]);
    case Accept(g) =>
      RecheckedAcuteIsAcute(tipo, steps[0]);
      if sinDeg(g.A) == 0.0 {
        RecheckedGenerateIsAcute(tipo, scale, sinDeg, steps[1..]);
      }
  }

  /** An in-range draw for "aleatorio" that is always rejected (C = -40). */
  const Rejected: Step := Step(100.0, 120.0, 20.0, 4.0)

  lemma {:induction false} RejectedForever(rule: AcuteRule, scale: real, sinDeg: real -> real, steps: seq<Step>)
    requires forall i :: 0 <= i < |steps| ==> steps[i] == Rejected
    ensures HolaGenerate(rule, "aleatorio", scale, sinDeg, steps).None?
    decreases |steps|
  {
    if |steps| > 0 {
      assert Decide(rule, "aleatorio", steps[0]) == Regenerate("aleatorio");
      RejectedForever(rule, scale, sinDeg, steps[1..]);
    }
  }

  /** No number of calls is enough: for every n there are n in-range draws
      after which an "aleatorio" request has still not produced a triangle
      (the other variants always answer after one round; see
      `Sampler.GenerateFirstRound`). */
  lemma Unbounded(rule: AcuteRule, scale: real, sinDeg: real -> real, n: nat)
    ensures var steps := seq(n, _ => Rejected);
            && HolaAllInRange(Free, steps)
            && HolaGenerate(rule, "aleatorio", scale, sinDeg, steps).None?
  {
    RejectedForever(rule, scale, sinDeg, seq(n, _ => Rejected));
  }

  /** An obtuse request whose candidate is rejected continues as "aleatorio". */
  lemma ObtuseFallsBackToFree(rule: AcuteRule, scale: real, sinDeg: real -> real, steps: seq<Step>)
    requires 0 < |steps| && steps[0].first + steps[0].second >= 180.0
    ensures HolaGenerate(rule, "obtuso", scale, sinDeg, steps) == HolaGenerate(rule, "aleatorio", scale, sinDeg, steps[1..])
  {
  }
}

=== FILE: layout.dfy ===
/** The arithmetic of `_draw_triangle` (xd3.py, xd.py, xd2.py) and of
    hola.py's `draw`: a fit scale, a horizontal baseline B–C, and the apex A
    found as the intersection of two circles, with the height² clamped at
    zero before the square root. `sqrt` stands for `math.sqrt` and is
    constrained only by `IsSqrt`; `isFinite` stands for `math.isfinite`.
    Screen y grows downwards, so "A above the baseline" is `A.y <= B.y`. */
module Layout {
  import opened Common
  import opened Measures
  import opened Trig

  datatype Point = Point(x: real, y: real)

  /** `self.pts` together with the scale it was drawn at. */
  datatype Placement = Placement(A: Point, B: Point, C: Point, scale: real)

  const CanvasWidth: real := 520.0
  const CanvasHeight: real := 420.0
  const Margin: real := 40.0
  /** The share of the usable area the longest side may fill. */
  const Fill: real := 0.9

  /** The height of the baseline, `canvas_h - margin`. */
  const Baseline: real := CanvasHeight - Margin

  function DistSq(p: Point, q: Point): real {
    (p.x - q.x) * (p.x - q.x) + (p.y - q.y) * (p.y - q.y)
  }

  /** `escala = min((canvas_w - 2·margin)/max_side, (canvas_h - 2·margin)/max_side) · 0.9`,
      which divides by zero when the longest side is 0. For a positive
      longest side the canvas height is the binding bound, so that side
      spans 0.9 of the usable height. */
  function FitScale(maxSide: real): (r: Outcome<real>)
    ensures r.Raises? <==> maxSide == 0.0
    ensures r.Raises? ==> r.error == ZeroDivisionError
    ensures r.Returns? ==> r.value != 0.0
    ensures 0.0 < maxSide ==> 0.0 < r.value
  {
    if maxSide == 0.0 then Raises(ZeroDivisionError)
    else
      var w := (CanvasWidth - 2.0 * Margin) / maxSide;
      var h := (CanvasHeight - 2.0 * Margin) / maxSide;
      assert w != 0.0 && h != 0.0;
      Returns(Min(w, h) * Fill)
  }

  /** For a positive longest side the canvas height is the binding bound:
      the longest side, scaled, spans 0.9 of the usable height. */
  lemma FitScaleFillsHeight(maxSide: real)
    requires 0.0 < maxSide
    ensures FitScale(maxSide).value * maxSide == Fill * (CanvasHeight - 2.0 * Margin)
  {
    var w := (CanvasWidth - 2.0 * Margin) / maxSide;
    var h := (CanvasHeight - 2.0 * Margin) / maxSide;
    assert h * maxSide == CanvasHeight - 2.0 * Margin;
    assert h < w by {
      assert w - h == 100.0 / maxSide;
    }
    assert FitScale(maxSide).value == h * Fill;
  }

  /** `x_proj`: the distance from B, along the baseline, to the foot of the
      apex, for a baseline of length `d` and radii `rB` from B and `rC` from C. */
  function Projection(d: real, rB: real, rC: real): real
    requires d != 0.0
  {
    (rB * rB - rC * rC + d * d) / (2.0 * d)
  }

  /** `tmp`: the height² before clamping. */
  function HeightSq(d: real, rB: real, rC: real): real
    requires d != 0.0
  {
    var x := Projection(d, rB, rC);
    rB * rB - x * x
  }

  /** The apex on the baseline through `B`: offset by `x_proj` along it and
      raised by the square root of the clamped height². */
  function Apex(B: Point, d: real, rB: real, rC: real, sqrt: real -> real): (A: Point)
    requires d != 0.0
    ensures IsSqrt(sqrt) ==> A.y <= B.y
  {
    var x := Projection(d, rB, rC);
    var tmp := rB * rB - x * x;
    var h := sqrt(if tmp < 0.0 then 0.0 else tmp);
    Point(B.x + x, B.y - h)
  }

  /** When the height² needs no clamping, the apex lies on both circles:
      at distance `rB` from B and `rC` from C = B + (d, 0). */
  lemma ApexOnBothCircles(B: Point, d: real, rB: real, rC: real, sqrt: real -> real)
    requires IsSqrt(sqrt) && d != 0.0 && 0.0 <= HeightSq(d, rB, rC)
    ensures DistSq(Apex(B, d, rB, rC, sqrt), B) == rB * rB
    ensures DistSq(Apex(B, d, rB, rC, sqrt), Point(B.x + d, B.y)) == rC * rC
  {
    var x := Projection(d, rB, rC);
    var h := sqrt(HeightSq(d, rB, rC));
    var A := Apex(B, d, rB, rC, sqrt);
    assert h * h == rB * rB - x * x;
    assert A == Point(B.x + x, B.y - h);
    assert x * (2.0 * d) == rB * rB - rC * rC + d * d;
    calc {
      DistSq(A, Point(B.x + d, B.y));
      (x - d) * (x - d) + h * h;
      x * x - 2.0 * d * x + d * d + rB * rB - x * x;
      d * d - (rB * rB - rC * rC + d * d) + rB * rB;
      rC * rC;
    }
  }

  /** For radii and a baseline satisfying the strict triangle inequality,
      the height² is positive, so the clamp never fires. */
  lemma HeightSqPositive(d: real, rB: real, rC: real)
    requires StrictTriangle(d, rB, rC)
    ensures 0.0 < HeightSq(d, rB, rC)
  {
    var n := rB * rB - rC * rC + d * d;
    var x := Projection(d, rB, rC);
    assert x * (2.0 * d) == n;
    var f1, f2 := rC - rB + d, rC + rB - d;
    var g1, g2 := rB + d - rC, rB + d + rC;
    var p := 2.0 * d * rB - n;
    var q := 2.0 * d * rB + n;
    assert p == f1 * f2;
    assert q == g1 * g2;
    MulPos(f1, f2);
    MulPos(g1, g2);
    assert 0.0 < p && 0.0 < q;
    MulPos(p, q);
    assert p * q == (2.0 * d * rB) * (2.0 * d * rB) - n * n;
    assert n * n == (2.0 * d) * (2.0 * d) * (x * x);
    assert p * q == (2.0 * d) * (2.0 * d) * HeightSq(d, rB, rC);
    MulPos(2.0 * d, 2.0 * d);
    PositiveFactor(2.0 * d * (2.0 * d), HeightSq(d, rB, rC));
  }

  lemma PositiveFactor(u: real, v: real)
    requires 0.0 < u && 0.0 < u * v
    ensures 0.0 < v
  {
  }

  /** The placement's sides |BC|, |CA| and |AB| have the given lengths. */
  predicate Realises(p: Placement, bc: real, ca: real, ab: real) {
    && DistSq(p.B, p.C) == bc * bc
    && DistSq(p.A, p.C) == ca * ca
    && DistSq(p.A, p.B) == ab * ab
  }

  /** The construction every variant shares once the scale `e` is known: a
      baseline of length `d` from `B` to the right, the apex at radius `rB`
      from B and `rC` from C, and a division by zero in `x_proj` when the
      baseline is empty. */
  function PlaceOn(B: Point, d: real, rB: real, rC: real, e: real, sqrt: real -> real): (r: Outcome<Placement>)
    ensures r.Raises? <==> d == 0.0
    ensures r.Raises? ==> r.error == ZeroDivisionError
    ensures r.Returns? ==> r.value.B == B && r.value.C == Point(B.x + d, B.y) && r.value.scale == e
    ensures r.Returns? && IsSqrt(sqrt) ==> r.value.A.y <= B.y
  {
    if d == 0.0 then Raises(ZeroDivisionError)
    else Returns(Placement(Apex(B, d, rB, rC, sqrt), B, Point(B.x + d, B.y), e))
  }

  /** For lengths obeying the strict triangle inequality the construction
      succeeds and realises them: |BC| = d, |CA| = rC and |AB| = rB. */
  lemma PlaceOnRealises(B: Point, d: real, rB: real, rC: real, e: real, sqrt: real -> real)
    requires IsSqrt(sqrt) && StrictTriangle(d, rB, rC)
    ensures PlaceOn(B, d, rB, rC, e, sqrt).Returns?
    ensures Realises(PlaceOn(B, d, rB, rC, e, sqrt).value, d, rC, rB)
  {
    HeightSqPositive(d, rB, rC);
    ApexOnBothCircles(B, d, rB, rC, sqrt);
  }

  /** A product with a non-zero factor is zero exactly when the other is. */
  lemma ZeroProduct(x: real, e: real)
    requires e != 0.0
    ensures x * e == 0.0 <==> x == 0.0
  {
    if x != 0.0 {
      assert x * e / e == x;
    }
  }

  /** xd.py's `escala`: 1 for a zero longest side, otherwise the fit scale.
      Wherever the unguarded variants do not divide by zero they use the
      same value. */
  function Scale(t: Triangle): (e: real)
    ensures e != 0.0
    ensures Max3(t.a, t.b, t.c) == 0.0 ==> e == 1.0
    ensures Max3(t.a, t.b, t.c) != 0.0 ==> FitScale(Max3(t.a, t.b, t.c)) == Returns(e)
    ensures 0.0 < Max3(t.a, t.b, t.c) ==> 0.0 < e
  {
    var m := Max3(t.a, t.b, t.c);
    if m == 0.0 then 1.0 else FitScale(m).value
  }

  /** `a_len`, `b_len` and `c_len`: the sides in pixels at the scale `e`. */
  datatype Lengths = Lengths(a: real, b: real, c: real, e: real)

  function Scaled(t: Triangle): (L: Lengths)
    ensures L.e == Scale(t)
    ensures L.a == t.a * L.e && L.b == t.b * L.e && L.c == t.c * L.e
    ensures L.a == 0.0 <==> t.a == 0.0
    ensures L.c == 0.0 <==> t.c == 0.0
  {
    var e := Scale(t);
    ZeroProduct(t.a, e);
    ZeroProduct(t.c, e);
    Lengths(t.a * e, t.b * e, t.c * e, e)
  }

  /** A genuine triangle stays one in pixels, whichever side is the base. */
  lemma ScaledIsTriangle(t: Triangle)
    requires StrictTriangle(t.a, t.b, t.c)
    ensures var L := Scaled(t);
            StrictTriangle(L.a, L.b, L.c) && StrictTriangle(L.a, L.c, L.b) && StrictTriangle(L.c, L.b, L.a)
  {
    var L := Scaled(t);
    var e := L.e;
    assert 0.0 < e;
    MulPos(t.a, e);
    MulPos(t.b, e);
    MulPos(t.c, e);
    SlackScales(t.b + t.c - t.a, e, L.b + L.c - L.a);
    SlackScales(t.a + t.c - t.b, e, L.a + L.c - L.b);
    SlackScales(t.a + t.b - t.c, e, L.a + L.b - L.c);
  }

  lemma SlackScales(k: real, e: real, z: real)
    requires 0.0 < k && 0.0 < e && z == k * e
    ensures 0.0 < z
  {
    MulPos(k, e);
  }

  /** xd3.py's and xd2.py's `_draw_triangle`: no guard, so a zero longest
      side (in `escala`) or a zero side `a` (in `x_proj`) divides by zero.
      Otherwise the baseline of length `a_len` is centred at the height
      `canvas_h - margin`, and A is found from radius `c_len` at B and
      `b_len` at C. */
  function PlaceUnguarded(t: Triangle, sqrt: real -> real): (r: Outcome<Placement>)
    ensures r.Raises? <==> Max3(t.a, t.b, t.c) == 0.0 || t.a == 0.0
    ensures r.Raises? ==> r.error == ZeroDivisionError
    ensures r.Returns? ==>
              var p := r.value;
              && p.B.y == Baseline && p.C.y == Baseline
              && p.B.x + p.C.x == CanvasWidth
              && p.C.x - p.B.x == Scaled(t).a
              && FitScale(Max3(t.a, t.b, t.c)) == Returns(p.scale)
    ensures r.Returns? && IsSqrt(sqrt) ==> r.value.A.y <= r.value.B.y
  {
    if Max3(t.a, t.b, t.c) == 0.0 then Raises(ZeroDivisionError)
    else
      var L := Scaled(t);
      PlaceOn(Point((CanvasWidth - L.a) / 2.0, Baseline), L.a, L.c, L.b, L.e, sqrt)
  }

  /** The placed vertices realise the triangle: for positive sides obeying
      the triangle inequality, |BC|, |CA| and |AB| are `a_len`, `b_len` and
      `c_len`. */
  lemma UnguardedSidesMatch(t: Triangle, sqrt: real -> real)
    requires IsSqrt(sqrt) && StrictTriangle(t.a, t.b, t.c)
    ensures PlaceUnguarded(t, sqrt).Returns?
    ensures var L := Scaled(t);
            Realises(PlaceUnguarded(t, sqrt).value, L.a, L.b, L.c)
  {
    var L := Scaled(t);
    ScaledIsTriangle(t);
    PlaceOnRealises(Point((CanvasWidth - L.a) / 2.0, Baseline), L.a, L.c, L.b, L.e, sqrt);
  }

  /** The fallback of xd.py for a non-finite apex: half-way along the
      divisor, and raised above the baseline by the larger of 40 pixels and
      half the longer of the two other sides. */
  function FallbackApex(B: Point, d: real, bLen: real, cLen: real): (A: Point)
    ensures A.y <= B.y - Margin
    ensures A.x - B.x == (B.x + d) - A.x
    ensures 2.0 * (B.y - A.y) >= bLen && 2.0 * (B.y - A.y) >= cLen
    ensures B.y - A.y == Margin || 2.0 * (B.y - A.y) == bLen || 2.0 * (B.y - A.y) == cLen
  {
    Point(B.x + d / 2.0, B.y - Max(40.0, Max(bLen, cLen) / 2.0))
  }

  /** xd.py's `_draw_triangle`: `escala` is 1 for a zero longest side, the
      divisor is `a_len` or 1e-6 when that is zero, and a non-finite apex
      is replaced by `FallbackApex`. It never raises, and A never lies
      below the baseline on either path. */
  function PlaceGuarded(t: Triangle, sqrt: real -> real, isFinite: real -> bool): (p: Placement)
    ensures p.B.y == Baseline && p.C.y == Baseline
    ensures p.B.x + p.C.x == CanvasWidth && p.C.x - p.B.x == Scaled(t).a
    ensures Max3(t.a, t.b, t.c) == 0.0 ==> p.scale == 1.0
    ensures Max3(t.a, t.b, t.c) != 0.0 ==> FitScale(Max3(t.a, t.b, t.c)) == Returns(p.scale)
    ensures IsSqrt(sqrt) ==> p.A.y <= p.B.y
    ensures !(isFinite(p.A.x) && isFinite(p.A.y)) ==> p.A.y <= p.B.y - Margin
    ensures !(isFinite(p.A.x) && isFinite(p.A.y)) && Scaled(t).a != 0.0 ==> 2.0 * p.A.x == p.B.x + p.C.x
    ensures var d := if Scaled(t).a != 0.0 then Scaled(t).a else 0.000001;
            var A0 := Apex(p.B, d, Scaled(t).c, Scaled(t).b, sqrt);
            && (isFinite(A0.x) && isFinite(A0.y) ==> p.A == A0)
            && (!(isFinite(A0.x) && isFinite(A0.y)) ==> p.A == FallbackApex(p.B, d, Scaled(t).b, Scaled(t).c))
  {
    var L := Scaled(t);
    var B := Point((CanvasWidth - L.a) / 2.0, Baseline);
    var C := Point(B.x + L.a, B.y);
    var d := if L.a != 0.0 then L.a else 0.000001;
    var A := Apex(B, d, L.c, L.b, sqrt);
    var A' := if isFinite(A.x) && isFinite(A.y) then A else FallbackApex(B, d, L.b, L.c);
    Placement(A', B, C, L.e)
  }

  /** Where xd3.py and xd2.py return a placement and every coordinate is
      finite, xd.py's guards change nothing. */
  lemma GuardedAgreesWithUnguarded(t: Triangle, sqrt: real -> real, isFinite: real -> bool)
    requires PlaceUnguarded(t, sqrt).Returns?
    requires forall x :: isFinite(x)
    ensures PlaceGuarded(t, sqrt, isFinite) == PlaceUnguarded(t, sqrt).value
  {
    var L := Scaled(t);
    var A := Apex(Point((CanvasWidth - L.a) / 2.0, Baseline), L.a, L.c, L.b, sqrt);
    assert isFinite(A.x) && isFinite(A.y);
  }

  /** Where xd3.py and xd2.py divide by zero because side `a` is 0, xd.py
      still answers, with the base collapsed to a point at the centre. */
  lemma GuardedSurvivesZeroBase(t: Triangle, sqrt: real -> real, isFinite: real -> bool)
    requires t.a == 0.0
    ensures PlaceUnguarded(t, sqrt).Raises?
    ensures PlaceGuarded(t, sqrt, isFinite).B == PlaceGuarded(t, sqrt, isFinite).C == Point(CanvasWidth / 2.0, Baseline)
  {
  }

  /** The triangles hola.py's `draw` cannot place: its `escala` divides by
      the longest side and its `x_proj` by `c·escala`. */
  predicate HolaDrawFails(t: Triangle) {
    Max3(t.a, t.b, t.c) == 0.0 || t.c == 0.0
  }

  /** hola.py's `draw`: B is fixed at (margin, canvas_h - margin), C lies
      `c·escala` to its right, and A is found from radius `b·escala` at B
      and `a·escala` at C. Both divisions are unguarded. */
  function PlaceHola(t: Triangle, sqrt: real -> real): (r: Outcome<Placement>)
    ensures r.Raises? <==> Max3(t.a, t.b, t.c) == 0.0 || t.c == 0.0
    ensures r.Raises? <==> HolaDrawFails(t)
    ensures r.Raises? ==> r.error == ZeroDivisionError
    ensures r.Returns? ==>
              var p := r.value;
              && p.B == Point(Margin, Baseline) && p.C.y == Baseline
              && p.C.x - p.B.x == Scaled(t).c
              && FitScale(Max3(t.a, t.b, t.c)) == Returns(p.scale)
    ensures r.Returns? && IsSqrt(sqrt) ==> r.value.A.y <= r.value.B.y
  {
    if Max3(t.a, t.b, t.c) == 0.0 then Raises(ZeroDivisionError)
    else
      var L := Scaled(t);
      PlaceOn(Point(Margin, Baseline), L.c, L.b, L.a, L.e, sqrt)
  }

  /** What hola.py actually draws: |BC| is `c_len`, |CA| is `a_len` and
      |AB| is `b_len`, so the labels a (on BC), b (on AC) and c (on AB) each
      sit on another side. */
  lemma HolaSidesAsDrawn(t: Triangle, sqrt: real -> real)
    requires IsSqrt(sqrt) && StrictTriangle(t.a, t.b, t.c)
    ensures PlaceHola(t, sqrt).Returns?
    ensures var L := Scaled(t);
            Realises(PlaceHola(t, sqrt).value, L.c, L.a, L.b)
  {
    var L := Scaled(t);
    ScaledIsTriangle(t);
    PlaceOnRealises(Point(Margin, Baseline), L.c, L.b, L.a, L.e, sqrt);
  }

  /** A 3-4-5 triangle drawn by hola.py: the segment labelled `a` (BC) is 5
      scaled units long, not 3. */
  lemma HolaMislabelsSides(sqrt: real -> real, A: real, B: real, C: real)
    ensures var t := Triangle(3.0, 4.0, 5.0, A, B, C);
            && PlaceHola(t, sqrt).Returns?
            && var p := PlaceHola(t, sqrt).value;
               DistSq(p.B, p.C) != Scaled(t).a * Scaled(t).a
  {
    var t := Triangle(3.0, 4.0, 5.0, A, B, C);
    assert Max3(3.0, 4.0, 5.0) == 5.0;
    var L := Scaled(t);
    var e := L.e;
    assert 0.0 < e;
    var p := PlaceHola(t, sqrt).value;
    assert p.B.y == p.C.y && p.C.x - p.B.x == L.c;
    assert DistSq(p.B, p.C) == L.c * L.c;
    assert L.c * L.c - L.a * L.a == 16.0 * (e * e);
    MulPos(e, e);
  }

  /** hola.py's layout with the baseline that its labels assume: B–C of
      length `a·escala`, radius `c·escala` at B and `b·escala` at C. */
  function PlaceHolaCorrected(t: Triangle, sqrt: real -> real): (r: Outcome<Placement>)
    ensures r.Raises? <==> Max3(t.a, t.b, t.c) == 0.0 || t.a == 0.0
    ensures r.Raises? ==> r.error == ZeroDivisionError
    ensures r.Returns? ==>
              var p := r.value;
              && p.B == Point(Margin, Baseline) && p.C.y == Baseline
              && p.C.x - p.B.x == Scaled(t).a
              && FitScale(Max3(t.a, t.b, t.c)) == Returns(p.scale)
    ensures r.Returns? && IsSqrt(sqrt) ==> r.value.A.y <= r.value.B.y
  {
    if Max3(t.a, t.b, t.c) == 0.0 then Raises(ZeroDivisionError)
    else
      var L := Scaled(t);
      PlaceOn(Point(Margin, Baseline), L.a, L.c, L.b, L.e, sqrt)
  }

  /** With the corrected baseline every label sits on its own side. */
  lemma HolaCorrectedSidesMatch(t: Triangle, sqrt: real -> real)
    requires IsSqrt(sqrt) && StrictTriangle(t.a, t.b, t.c)
    ensures PlaceHolaCorrected(t, sqrt).Returns?
    ensures var L := Scaled(t);
            Realises(PlaceHolaCorrected(t, sqrt).value, L.a, L.b, L.c)
  {
    var L := Scaled(t);
    ScaledIsTriangle(t);
    PlaceOnRealises(Point(Margin, Baseline), L.a, L.c, L.b, L.e, sqrt);
  }
}

=== FILE: measures.dfy ===
/** The triangle record every variant passes around, and `seleccionar_medidas`,
    which splits its six measurements into the revealed (`known`) ones and
    the hidden (`unknown`) ones the learner must find. */
module Measures {
  import opened Common

  /** The six dictionary keys `'a','b','c','A','B','C'`. */
  datatype Key = SideA | SideB | SideC | AngleA | AngleB | AngleC

  const AllKeys: set<Key> := {SideA, SideB, SideC, AngleA, AngleB, AngleC}

  /** A generated triangle: side `a` lies opposite angle `A`, and so on.
      Angles are in degrees. */
  datatype Triangle = Triangle(a: real, b: real, c: real, A: real, B: real, C: real)

  /** `tri[k]`. */
  function Value(t: Triangle, k: Key): real {
    match k
    case SideA => t.a
    case SideB => t.b
    case SideC => t.c
    case AngleA => t.A
    case AngleB => t.B
    case AngleC => t.C
  }

  /** The pair `(known, unknown)`: a dictionary of revealed values and the
      list of hidden keys, in display order. */
  datatype Selection = Selection(known: map<Key, real>, unknown: seq<Key>)

  function KeySet(s: seq<Key>): set<Key> {
    set k | k in s
  }

  /** `sel` splits the six keys of `t` into revealed and hidden ones: no key
      is both, none is missing, none is hidden twice, and each revealed value
      is the one stored in the triangle. */
  ghost predicate Partitions(t: Triangle, sel: Selection) {
    && (forall k :: k in sel.unknown ==> k !in sel.known)
    && sel.known.Keys + KeySet(sel.unknown) == AllKeys
    && (forall k :: k in sel.known ==> sel.known[k] == Value(t, k))
    && (forall i, j :: 0 <= i < j < |sel.unknown| ==> sel.unknown[i] != sel.unknown[j])
  }

  /** The number of entries of `MODOS`. */
  const ModeCount: int := 5

  /** `seleccionar_medidas(tri, modo_index)` of xd.py, xd2.py and xd3.py:
      modes 0 to 3 reveal a fixed subset, every other index reveals all. */
  function Select(t: Triangle, mode: int): (r: Selection)
    ensures Partitions(t, r)
    ensures (mode < 0 || 3 < mode) <==> r.unknown == []
    ensures 0 <= mode <= 3 ==> SideA in r.known && 3 <= |r.unknown|
  {
    if mode == 0 then
      Selection(map[SideA := t.a, SideB := t.b], [SideC, AngleA, AngleB, AngleC])
    else if mode == 1 then
      Selection(map[SideA := t.a, SideB := t.b, AngleA := t.A], [SideC, AngleB, AngleC])
    else if mode == 2 then
      Selection(map[SideA := t.a, AngleB := t.B, AngleC := t.C], [SideB, SideC, AngleA])
    else if mode == 3 then
      Selection(map[SideA := t.a, SideB := t.b, SideC := t.c], [AngleA, AngleB, AngleC])
    else
      Selection(map k | k in AllKeys :: Value(t, k), [])
  }

  /** The catalogue of modes, as revealed key sets and hidden key lists. */
  lemma ModeTable(t: Triangle, other: int)
    requires other < 0 || 3 < other
    ensures Select(t, 0).known.Keys == {SideA, SideB}
    ensures Select(t, 0).unknown == [SideC, AngleA, AngleB, AngleC]
    ensures Select(t, 1).known.Keys == {SideA, SideB, AngleA}
    ensures Select(t, 1).unknown == [SideC, AngleB, AngleC]
    ensures Select(t, 2).known.Keys == {SideA, AngleB, AngleC}
    ensures Select(t, 2).unknown == [SideB, SideC, AngleA]
    ensures Select(t, 3).known.Keys == {SideA, SideB, SideC}
    ensures Select(t, 3).unknown == [AngleA, AngleB, AngleC]
    ensures Select(t, other).known.Keys == AllKeys
    ensures Select(t, other).unknown == []
  {
  }

  /** hola.py's `seleccionar_medidas` first evaluates `MODOS[modo_index]`,
      which raises for an index Python's list indexing rejects (negative
      indices count from the end), and otherwise selects as above. */
  function SelectIndexed(t: Triangle, mode: int): (r: Outcome<Selection>)
    ensures r.Raises? <==> mode < -ModeCount || ModeCount <= mode
    ensures r.Raises? ==> r.error == IndexError
    ensures r.Returns? ==> r.value == Select(t, mode)
  {
    if mode < -ModeCount || ModeCount <= mode then Raises(IndexError)
    else Returns(Select(t, mode))
  }

  /** Inside the catalogue hola.py agrees with the other variants; past its
      end, where they reveal everything, it raises. */
  lemma IndexedAgreesInsideCatalogue(t: Triangle, mode: int)
    ensures 0 <= mode < ModeCount ==> SelectIndexed(t, mode) == Returns(Select(t, mode))
    ensures ModeCount <= mode ==> SelectIndexed(t, mode).Raises? && Select(t, mode).unknown == []
  {
  }
}

=== FILE: sampler.dfy ===
/** `generar_triangulo` of xd.py, xd2.py and xd3.py (the three copies are
    identical): rejection sampling of an angle triple under a shape rule,
    at most 30 attempts, a fixed fallback, then sides by the Law of Sines.

    Randomness is lifted out: each attempt's `random.uniform` values arrive
    as a `Draw`, and `sinDeg` stands for `math.sin(math.radians(·))`. */
module Sampler {
  import opened Common
  import opened Measures

  /** The four entries of the "Tipo" combobox. */
  datatype Shape = Right | Acute | Obtuse | Free

  /** `tipo` is compared with "rectangulo", "agudo" and "obtuso"; any other
      string takes the "aleatorio" branch. */
  function ShapeOf(tipo: string): Shape {
    if tipo == "rectangulo" then Right
    else if tipo == "agudo" then Acute
    else if tipo == "obtuso" then Obtuse
    else Free
  }

  datatype Angles = Angles(A: real, B: real, C: real)

  /** The uniform values one call of `random_angles_for` draws: `first` for
      angle A, `second` for angle B (a right triangle ignores `second`). */
  datatype Draw = Draw(first: real, second: real)

  /** The closed ranges `random.uniform` draws from, per shape. */
  predicate InRange(shape: Shape, d: Draw) {
    match shape
    case Right => 20.0 <= d.first <= 70.0
    case Acute => 20.0 <= d.first <= 70.0 && 20.0 <= d.second <= 80.0
    case Obtuse => 91.0 <= d.first <= 140.0 && 10.0 <= d.second <= 60.0
    case Free => 20.0 <= d.first <= 100.0 && 20.0 <= d.second <= 120.0
  }

  /** The angle left for C once A and B are drawn. */
  function Residual(d: Draw): real {
    180.0 - d.first - d.second
  }

  /** `random_angles_for(tipo)`: a candidate triple, or None when the
      shape's rejection test fails. */
  function Attempt(shape: Shape, d: Draw): (r: Option<Angles>)
    ensures r.Some? ==> r.value.A == d.first && r.value.A + r.value.B + r.value.C == 180.0
    ensures shape == Right ==> r.Some? && r.value.B == 90.0
    ensures shape != Right && r.Some? ==> r.value.B == d.second
    ensures shape == Acute ==> (r.None? <==> Residual(d) <= 0.0 || 90.0 <= Residual(d))
    ensures shape == Obtuse ==> (r.None? <==> Residual(d) <= 0.0)
    ensures shape == Free ==> (r.None? <==> Residual(d) <= 5.0)
  {
    match shape
    case Right =>
      Some(Angles(d.first, 90.0, 90.0 - d.first))
    case Acute =>
      var C := 180.0 - d.first - d.second;
      if C <= 0.0 || C >= 90.0 then None else Some(Angles(d.first, d.second, C))
    case Obtuse =>
      var C := 180.0 - d.first - d.second;
      if C <= 0.0 then None else Some(Angles(d.first, d.second, C))
    case Free =>
      var C := 180.0 - d.first - d.second;
      if C <= 5.0 then None else Some(Angles(d.first, d.second, C))
  }

  /** Three positive angles summing to 180 degrees. */
  predicate Valid(g: Angles) {
    0.0 < g.A && 0.0 < g.B && 0.0 < g.C && g.A + g.B + g.C == 180.0
  }

  /** A valid angle triple that also has the requested shape. */
  predicate Conforms(shape: Shape, g: Angles) {
    && Valid(g)
    && match shape
       case Right => g.B == 90.0
       case Acute => g.A < 90.0 && g.B < 90.0 && g.C < 90.0
       case Obtuse => 90.0 < g.A && g.B < 90.0 && g.C < 90.0
       case Free => 5.0 < g.C
  }

  /** A candidate that passes its rejection test, drawn from the shape's
      ranges, is a genuine triangle of that shape. */
  lemma AcceptedConforms(shape: Shape, d: Draw)
    requires InRange(shape, d) && Attempt(shape, d).Some?
    ensures Conforms(shape, Attempt(shape, d).value)
  {
  }

  const MaxAttempts: nat := 30

  /** The triple used when all 30 attempts are rejected, whatever the shape. */
  const Fallback: Angles := Angles(50.0, 60.0, 70.0)

  /** Index of the first accepted attempt at or after `from`, among the
      first `MaxAttempts`. */
  function FirstAccepted(shape: Shape, draws: seq<Draw>, from: nat): (r: Option<nat>)
    requires from <= MaxAttempts <= |draws|
    ensures r.Some? ==> from <= r.value < MaxAttempts && Attempt(shape, draws[r.value]).Some?
    ensures r.Some? ==> forall j :: from <= j < r.value ==> Attempt(shape, draws[j]).None?
    ensures r.None? ==> forall j :: from <= j < MaxAttempts ==> Attempt(shape, draws[j]).None?
    decreases MaxAttempts - from
  {
    if from == MaxAttempts then None
    else if Attempt(shape, draws[from]).Some? then Some(from)
    else FirstAccepted(shape, draws, from + 1)
  }

  /** The retry loop of `generar_triangulo`: the first accepted candidate
      among at most 30 attempts, else the fallback triple. */
  function SampleAngles(shape: Shape, draws: seq<Draw>): (r: Angles)
    requires MaxAttempts <= |draws|
    ensures r.A + r.B + r.C == 180.0
    ensures forall j :: 0 <= j < MaxAttempts && Attempt(shape, draws[j]).Some? &&
                        (forall i :: 0 <= i < j ==> Attempt(shape, draws[i]).None?)
                        ==> Attempt(shape, draws[j]) == Some(r)
    ensures (forall j :: 0 <= j < MaxAttempts ==> Attempt(shape, draws[j]).None?) ==> r == Fallback
  {
    match FirstAccepted(shape, draws, 0)
    case Some(j) => Attempt(shape, draws[j]).value
    case None => Fallback
  }

  /** Draws past the 30th are never consulted. */
  lemma {:induction false} FirstAcceptedUsesThirty(shape: Shape, d1: seq<Draw>, d2: seq<Draw>, from: nat)
    requires from <= MaxAttempts <= |d1| && MaxAttempts <= |d2|
    requires d1[..MaxAttempts] == d2[..MaxAttempts]
    ensures FirstAccepted(shape, d1, from) == FirstAccepted(shape, d2, from)
    decreases MaxAttempts - from
  {
    if from < MaxAttempts {
      assert d1[from] == d1[..MaxAttempts][from] == d2[..MaxAttempts][from] == d2[from];
      FirstAcceptedUsesThirty(shape, d1, d2, from + 1);
    }
  }

  lemma SampleUsesThirty(shape: Shape, d1: seq<Draw>, d2: seq<Draw>)
    requires MaxAttempts <= |d1| && MaxAttempts <= |d2|
    requires d1[..MaxAttempts] == d2[..MaxAttempts]
    ensures SampleAngles(shape, d1) == SampleAngles(shape, d2)
  {
    FirstAcceptedUsesThirty(shape, d1, d2, 0);
    var f := FirstAccepted(shape, d1, 0);
    if f.Some? {
      assert d1[f.value] == d1[..MaxAttempts][f.value] == d2[f.value];
    }
  }

  /** Every attempt in range for its shape. */
  predicate AllInRange(shape: Shape, draws: seq<Draw>) {
    forall i :: 0 <= i < |draws| ==> InRange(shape, draws[i])
  }

  /** The sampled triple has the requested shape, except that an obtuse
      request whose 30 attempts are all rejected gets the acute fallback. */
  lemma SampleConforms(shape: Shape, draws: seq<Draw>)
    requires MaxAttempts <= |draws| && AllInRange(shape, draws)
    ensures shape != Obtuse ==> Conforms(shape, SampleAngles(shape, draws))
    ensures shape == Obtuse ==> Conforms(Obtuse, SampleAngles(shape, draws)) || SampleAngles(shape, draws) == Fallback
    ensures shape == Right ==> SampleAngles(shape, draws) == Attempt(Right, draws[0]).value
  {
    match FirstAccepted(shape, draws, 0)
    case Some(j) =>
      AcceptedConforms(shape, draws[j]);
    case None =>
      assert Attempt(shape, draws[0]).None?;
  }

  /** The fallback is a valid acute triangle, and not an obtuse one. */
  lemma FallbackShape()
    ensures Conforms(Acute, Fallback) && Conforms(Free, Fallback)
    ensures !Conforms(Obtuse, Fallback) && !Conforms(Right, Fallback)
  {
  }

  /** The random values one call of `generar_triangulo` consumes: the
      attempts of the retry loop and the base side `random.uniform(4, 12)`. */
  datatype Round = Round(draws: seq<Draw>, side: real)

  predicate WellFormed(rounds: seq<Round>) {
    forall i :: 0 <= i < |rounds| ==> MaxAttempts <= |rounds[i].draws|
  }

  /** Sides derived from `a` by `k = a / sin A`, `b = k·sin B`, `c = k·sin C`. */
  predicate LawOfSines(t: Triangle, sinDeg: real -> real) {
    && sinDeg(t.A) != 0.0
    && t.b == t.a / sinDeg(t.A) * sinDeg(t.B)
    && t.c == t.a / sinDeg(t.A) * sinDeg(t.C)
  }

  /** `generar_triangulo(tipo, scale)`. A zero `sin A` restarts the whole
      generation; each restart consumes the next round, and the model
      answers None only when the rounds supplied run out. */
  function Generate(tipo: string, scale: real, sinDeg: real -> real, rounds: seq<Round>): (r: Option<Triangle>)
    requires WellFormed(rounds)
    ensures r.Some? ==> r.value.A + r.value.B + r.value.C == 180.0
    ensures r.Some? ==> LawOfSines(r.value, sinDeg)
    ensures r.None? ==> forall i :: 0 <= i < |rounds| ==> sinDeg(SampleAngles(ShapeOf(tipo), rounds[i].draws).A) == 0.0
    decreases |rounds|
  {
    if |rounds| == 0 then None
    else
      var g := SampleAngles(ShapeOf(tipo), rounds[0].draws);
      var a := rounds[0].side * scale;
      var sinA := sinDeg(g.A);
      if sinA == 0.0 then
        var r := Generate(tipo, scale, sinDeg, rounds[1..]);
        assert r.None? ==> forall i :: 1 <= i < |rounds| ==> rounds[i] == rounds[1..][i - 1];
        r
      else
        var k := a / sinA;
        Some(Triangle(a, k * sinDeg(g.B), k * sinDeg(g.C), g.A, g.B, g.C))
  }

  /** The three Law-of-Sines ratios agree wherever the sines are non-zero. */
  lemma SineRatiosAgree(t: Triangle, sinDeg: real -> real)
    requires LawOfSines(t, sinDeg)
    ensures sinDeg(t.B) != 0.0 ==> t.b / sinDeg(t.B) == t.a / sinDeg(t.A)
    ensures sinDeg(t.C) != 0.0 ==> t.c / sinDeg(t.C) == t.a / sinDeg(t.A)
  {
    var k := t.a / sinDeg(t.A);
    if sinDeg(t.B) != 0.0 {
      CancelFactor(k, sinDeg(t.B));
    }
    if sinDeg(t.C) != 0.0 {
      CancelFactor(k, sinDeg(t.C));
    }
  }

  lemma CancelFactor(k: real, s: real)
    requires s != 0.0
    ensures k * s / s == k
  {
  }

  /** The sine is positive strictly between 0 and 180 degrees. */
  ghost predicate SinePositive(sinDeg: real -> real) {
    forall x :: 0.0 < x < 180.0 ==> 0.0 < sinDeg(x)
  }

  /** With in-range draws a single round always suffices: no restart ever
      happens, the triangle has the requested shape (bar the obtuse
      fallback), and a positive base side gives three positive sides. */
  lemma GenerateFirstRound(tipo: string, scale: real, sinDeg: real -> real, rounds: seq<Round>)
    requires WellFormed(rounds) && 0 < |rounds|
    requires AllInRange(ShapeOf(tipo), rounds[0].draws)
    requires SinePositive(sinDeg)
    requires 0.0 < rounds[0].side && 0.0 < scale
    ensures Generate(tipo, scale, sinDeg, rounds).Some?
    ensures var t := Generate(tipo, scale, sinDeg, rounds).value;
            && t.a == rounds[0].side * scale
            && Angles(t.A, t.B, t.C) == SampleAngles(ShapeOf(tipo), rounds[0].draws)
            && 0.0 < t.a && 0.0 < t.b && 0.0 < t.c
  {
    var shape := ShapeOf(tipo);
    var g := SampleAngles(shape, rounds[0].draws);
    SampleConforms(shape, rounds[0].draws);
    assert Conforms(shape, g) || g == Fallback;
    assert 0.0 < g.A < 180.0 && 0.0 < g.B < 180.0 && 0.0 < g.C < 180.0;
    var a := rounds[0].side * scale;
    assert 0.0 < a by { PositiveProduct(rounds[0].side, scale); }
    var sA, sB, sC := sinDeg(g.A), sinDeg(g.B), sinDeg(g.C);
    assert 0.0 < sA && 0.0 < sB && 0.0 < sC;
    var k := a / sA;
    assert 0.0 < k;
    PositiveProduct(k, sB);
    PositiveProduct(k, sC);
  }

  lemma PositiveProduct(x: real, y: real)
    requires 0.0 < x && 0.0 < y
    ensures 0.0 < x * y
  {
  }
}

=== FILE: session.dfy ===
/** The state the event handlers keep: the selected mode, the current
    triangle, its revealed/hidden split, and the two view flags
    `show_solution` and `show_hints`. A new random triangle arrives as a
    parameter of the event that asks for one; a combobox choice arrives as
    the index `current()` returned, which is -1 when nothing is selected. */
module Session {
  import opened Common
  import opened Measures
  import Layout

  /** `panelDrawn` says that the information panel holds what the last
      `draw` wrote there rather than the solution text. xd3.py embeds its
      answer entries in that panel, so clearing it destroys them. */
  datatype App = App(mode: int, tri: Triangle, sel: Selection, showSolution: bool, showHints: bool,
                     panelDrawn: bool)

  /** The state after `__init__`: mode 1, the first triangle, both flags
      off, and the panel drawn. */
  function Initial(t: Triangle): (app: App)
    ensures app.mode == 1 && app.tri == t
    ensures Synced(app) && Exclusive(app)
    ensures !app.showSolution && !app.showHints
    ensures app.panelDrawn
  {
    App(1, t, Select(t, 1), false, false, true)
  }

  /** The split shown is the one `seleccionar_medidas` gives for the current
      triangle and mode. */
  predicate Synced(app: App) {
    app.sel == Select(app.tri, app.mode)
  }

  /** The solution and the hints are never shown together. */
  predicate Exclusive(app: App) {
    !(app.showSolution && app.showHints)
  }

  /** The index range of the mode combobox's `current()`. */
  predicate ComboIndex(idx: int) {
    -1 <= idx < ModeCount
  }

  datatype Event = ModeChosen(idx: int) | NewTriangle(t: Triangle) | ShowSolution | ToggleHint

  /** The handlers of xd.py: `modo_changed` ignores a negative index,
      `nuevo_triangulo` clears both flags, `toggle_solution` shows the
      solution and hides the hints, `toggle_hint` flips the hints and hides
      the solution when it turns them on. Every handler but an ignored
      `modo_changed` recomputes the split. The "Pista" button of xd.py is
      bound to `mostrar_pista`, not `toggle_hint`, so `ToggleHint` is never
      fired there and `show_hints` stays off in practice. */
  function StepXd(app: App, ev: Event): (r: App)
    ensures Synced(app) ==> Synced(r)
    ensures !(ev.ModeChosen? && ev.idx < 0) ==> Synced(r)
    ensures Exclusive(app) ==> Exclusive(r)
    ensures ev.ModeChosen? && ev.idx < 0 ==> r == app
    ensures ev.ModeChosen? && 0 <= ev.idx ==> r.mode == ev.idx && r.tri == app.tri
    ensures ev.NewTriangle? ==> r.tri == ev.t && r.mode == app.mode && !r.showSolution && !r.showHints
    ensures ev.ShowSolution? ==> r.showSolution && !r.showHints
    ensures ev.ToggleHint? ==> r.showHints == !app.showHints && (r.showHints ==> !r.showSolution)
    ensures ev.ToggleHint? && !r.showHints ==> r.showSolution == app.showSolution
    ensures ev.ModeChosen? ==> r.showSolution == app.showSolution && r.showHints == app.showHints
    ensures ev.ShowSolution? || ev.ToggleHint? ==> r.mode == app.mode
    ensures !ev.NewTriangle? ==> r.tri == app.tri
    ensures ev.ShowSolution? ==> !r.panelDrawn
    ensures ev.NewTriangle? || ev.ToggleHint? || (ev.ModeChosen? && 0 <= ev.idx) ==> r.panelDrawn
  {
    match ev
    case ModeChosen(idx) =>
      if idx >= 0 then app.(mode := idx, sel := Select(app.tri, idx), panelDrawn := true) else app
    case NewTriangle(t) =>
      app.(tri := t, sel := Select(t, app.mode), showSolution := false, showHints := false, panelDrawn := true)
    case ShowSolution =>
      app.(showSolution := true, showHints := false, sel := Select(app.tri, app.mode), panelDrawn := false)
    case ToggleHint =>
      var hints := !app.showHints;
      app.(showHints := hints, showSolution := if hints then false else app.showSolution,
           sel := Select(app.tri, app.mode), panelDrawn := true)
  }

  /** Tk's event loop in xd.py: the handlers run in order on the state the
      previous one left, and the triangle shown is the last one delivered. */
  function RunXd(app: App, evs: seq<Event>): (r: App)
    ensures evs != [] && evs[|evs| - 1].NewTriangle? ==> r.tri == evs[|evs| - 1].t
    ensures (forall i :: 0 <= i < |evs| ==> !evs[i].NewTriangle?) ==> r.tri == app.tri
    decreases |evs|
  {
    if evs == [] then app else RunXd(StepXd(app, evs[0]), evs[1..])
  }

  /** Whatever the learner does in xd.py, the split stays in step with the
      triangle and mode, and the solution and hints never show together. */
  lemma {:induction false} XdInvariant(app: App, evs: seq<Event>)
    requires Synced(app) && Exclusive(app)
    ensures Synced(RunXd(app, evs)) && Exclusive(RunXd(app, evs))
    decreases |evs|
  {
    if evs != [] {
      XdInvariant(StepXd(app, evs[0]), evs[1..]);
    }
  }

  /** A mode index from the combobox is always a valid mode in xd.py: it
      starts at 1 and only a non-negative index is ever stored. */
  lemma {:induction false} XdModeNonNegative(app: App, evs: seq<Event>)
    requires 0 <= app.mode
    ensures 0 <= RunXd(app, evs).mode
    decreases |evs|
  {
    if evs != [] {
      XdModeNonNegative(StepXd(app, evs[0]), evs[1..]);
    }
  }

  /** The handlers of xd3.py and xd2.py: `modo_changed` stores any index,
      `nuevo_triangulo` leaves the flags alone, `toggle_solution` shows the
      solution and hides the hints, and `mostrar_pista` writes hint text
      without touching the state. Only `toggle_solution` clears the panel
      without drawing it again; in xd3.py that leaves the answer entries
      destroyed until the next draw (xd2.py keeps its entries in a frame of
      their own). */
  function StepXd3(app: App, ev: Event): (r: App)
    ensures Synced(app) ==> Synced(r)
    ensures !ev.ToggleHint? ==> Synced(r)
    ensures !app.showHints ==> !r.showHints
    ensures ev.ModeChosen? ==> r.mode == ev.idx && r.tri == app.tri
    ensures ev.NewTriangle? ==> r.tri == ev.t && r.mode == app.mode
    ensures ev.NewTriangle? || ev.ModeChosen? ==> r.showSolution == app.showSolution && r.showHints == app.showHints
    ensures ev.ShowSolution? ==> r.showSolution && !r.showHints && r.mode == app.mode && r.tri == app.tri
    ensures ev.ToggleHint? ==> r == app
    ensures ev.ShowSolution? ==> !r.panelDrawn
    ensures ev.ModeChosen? || ev.NewTriangle? ==> r.panelDrawn
  {
    match ev
    case ModeChosen(idx) =>
      app.(mode := idx, sel := Select(app.tri, idx), panelDrawn := true)
    case NewTriangle(t) =>
      app.(tri := t, sel := Select(t, app.mode), panelDrawn := true)
    case ShowSolution =>
      app.(showSolution := true, showHints := false, sel := Select(app.tri, app.mode), panelDrawn := false)
    case ToggleHint =>
      app
  }

  /** The same loop for xd3.py and xd2.py. */
  function RunXd3(app: App, evs: seq<Event>): (r: App)
    ensures evs != [] && evs[|evs| - 1].NewTriangle? ==> r.tri == evs[|evs| - 1].t
    ensures (forall i :: 0 <= i < |evs| ==> !evs[i].NewTriangle?) ==> r.tri == app.tri
    decreases |evs|
  {
    if evs == [] then app else RunXd3(StepXd3(app, evs[0]), evs[1..])
  }

  /** In xd3.py and xd2.py nothing ever sets `show_hints`: from the initial
      state it stays false, and the split stays in step. */
  lemma {:induction false} Xd3Invariant(app: App, evs: seq<Event>)
    requires Synced(app) && !app.showHints
    ensures Synced(RunXd3(app, evs)) && !RunXd3(app, evs).showHints
    decreases |evs|
  {
    if evs != [] {
      Xd3Invariant(StepXd3(app, evs[0]), evs[1..]);
    }
  }

  /** A cleared combobox (index -1) reveals every measurement in xd3.py and
      xd2.py, where xd.py keeps the state as it was. */
  lemma NegativeIndexDiffers(app: App)
    ensures StepXd3(app, ModeChosen(-1)).sel.unknown == []
    ensures StepXd(app, ModeChosen(-1)) == app
  {
  }

  datatype HolaEvent = HolaModeChosen(idx: int, t: Triangle) | HolaNewTriangle(t: Triangle)
                     | ToggleSolution | HolaToggleHint

  /** The state after a handler and the exception, if any, it ended with;
      Tk keeps running with whatever had been assigned before it. */
  datatype Reaction = Reaction(app: App, raised: Option<PyError>)

  /** hola.py's `draw` at the end of every handler: it divides by zero for
      a triangle `Layout.PlaceHola` cannot place, before it rewrites the
      panel; otherwise the panel is drawn. */
  function Redraw(app: App): (r: Reaction)
    ensures r.raised.Some? <==> Layout.HolaDrawFails(app.tri)
    ensures r.raised.Some? ==> r.raised.value == ZeroDivisionError && r.app == app
    ensures r.raised.None? ==> r.app == app.(panelDrawn := true)
  {
    if Layout.HolaDrawFails(app.tri) then Reaction(app, Some(ZeroDivisionError))
    else Reaction(app.(panelDrawn := true), None)
  }

  /** hola.py's `nuevo_triangulo` once the new triangle is drawn: it is
      stored first, then `seleccionar_medidas` may raise before the split
      and the flags are updated, and last `draw` may raise. */
  function Renew(app: App, t: Triangle): (r: Reaction)
    ensures r.app.tri == t && r.app.mode == app.mode
    ensures r.raised == Some(IndexError) <==> SelectIndexed(t, app.mode).Raises?
    ensures r.raised == Some(ZeroDivisionError) <==> SelectIndexed(t, app.mode).Returns? && Layout.HolaDrawFails(t)
    ensures r.raised.None? <==> SelectIndexed(t, app.mode).Returns? && !Layout.HolaDrawFails(t)
    ensures SelectIndexed(t, app.mode).Returns? ==> Synced(r.app) && !r.app.showSolution && !r.app.showHints
    ensures r.raised == Some(IndexError) ==>
              r.app.sel == app.sel && r.app.showSolution == app.showSolution && r.app.showHints == app.showHints
    ensures r.app.panelDrawn == (r.raised.None? || app.panelDrawn)
  {
    match SelectIndexed(t, app.mode)
    case Raises(e) => Reaction(app.(tri := t), Some(e))
    case Returns(sel) => Redraw(app.(tri := t, sel := sel, showSolution := false, showHints := false))
  }

  /** A handler of hola.py raises whatever the state, when its triangle
      cannot be drawn or its index lies past the catalogue. */
  predicate AlwaysRaises(ev: HolaEvent) {
    || (ev.HolaModeChosen? && (ev.idx < -ModeCount || ModeCount <= ev.idx || Layout.HolaDrawFails(ev.t)))
    || (ev.HolaNewTriangle? && Layout.HolaDrawFails(ev.t))
  }

  /** The handlers of hola.py: choosing a mode stores the index and draws a
      new triangle, the two toggles flip their flag and clear the other one
      when they turn theirs on, and each handler ends with `draw`. */
  function StepHola(app: App, ev: HolaEvent): (r: Reaction)
    ensures Exclusive(app) ==> Exclusive(r.app)
    ensures r.raised == Some(IndexError) <==>
              (ev.HolaModeChosen? && (ev.idx < -ModeCount || ModeCount <= ev.idx))
              || (ev.HolaNewTriangle? && (app.mode < -ModeCount || ModeCount <= app.mode))
    ensures r.raised == Some(ZeroDivisionError) <==>
              && r.raised != Some(IndexError)
              && Layout.HolaDrawFails(if ev.HolaModeChosen? || ev.HolaNewTriangle? then ev.t else app.tri)
    ensures r.raised.Some? ==> r.raised == Some(IndexError) || r.raised == Some(ZeroDivisionError)
    ensures AlwaysRaises(ev) ==> r.raised.Some?
    ensures r.raised.None? && (ev.HolaModeChosen? || ev.HolaNewTriangle?) ==>
              Synced(r.app) && !r.app.showSolution && !r.app.showHints
    ensures ev.ToggleSolution? ==> r.app.showSolution == !app.showSolution && (r.app.showSolution ==> !r.app.showHints)
    ensures ev.HolaToggleHint? ==> r.app.showHints == !app.showHints && (r.app.showHints ==> !r.app.showSolution)
    ensures ev.ToggleSolution? || ev.HolaToggleHint? ==>
              && r.app.sel == app.sel && r.app.tri == app.tri && r.app.mode == app.mode
              && (r.raised.None? <==> !Layout.HolaDrawFails(app.tri))
              && r.app.panelDrawn == (r.raised.None? || app.panelDrawn)
    ensures ev.ToggleSolution? && !r.app.showSolution ==> r.app.showHints == app.showHints
    ensures ev.HolaToggleHint? && !r.app.showHints ==> r.app.showSolution == app.showSolution
    ensures ev.HolaModeChosen? ==> r.app.mode == ev.idx && r.app.tri == ev.t
    ensures ev.HolaNewTriangle? ==> r.app.mode == app.mode && r.app.tri == ev.t
    ensures r.raised == Some(IndexError) ==>
              r.app.sel == app.sel && r.app.showSolution == app.showSolution && r.app.showHints == app.showHints
  {
    match ev
    case HolaModeChosen(idx, t) => Renew(app.(mode := idx), t)
    case HolaNewTriangle(t) => Renew(app, t)
    case ToggleSolution =>
      var sol := !app.showSolution;
      Redraw(app.(showSolution := sol, showHints := if sol then false else app.showHints))
    case HolaToggleHint =>
      var hints := !app.showHints;
      Redraw(app.(showHints := hints, showSolution := if hints then false else app.showSolution))
  }

  /** The state after a run of events and the exceptions Tk reported on
      the way, in order. */
  datatype Run = Run(app: App, reported: seq<PyError>)

  /** How many of the events raise whatever state they meet. */
  function CountAlwaysRaising(evs: seq<HolaEvent>): (n: nat)
    ensures n <= |evs|
    decreases |evs|
  {
    if evs == [] then 0 else (if AlwaysRaises(evs[0]) then 1 else 0) + CountAlwaysRaising(evs[1..])
  }

  /** Tk's event loop in hola.py: an exception in a handler is reported and
      the loop goes on dispatching events on the state as the handler left
      it. Every event that raises whatever the state is reported, and the
      triangle shown is the last one delivered, raise or not. */
  function RunHola(app: App, evs: seq<HolaEvent>): (r: Run)
    ensures CountAlwaysRaising(evs) <= |r.reported| <= |evs|
    ensures forall i :: 0 <= i < |r.reported| ==> r.reported[i] == IndexError || r.reported[i] == ZeroDivisionError
    ensures evs != [] && (evs[|evs| - 1].HolaModeChosen? || evs[|evs| - 1].HolaNewTriangle?) ==>
              r.app.tri == evs[|evs| - 1].t
    ensures (forall i :: 0 <= i < |evs| ==> evs[i].ToggleSolution? || evs[i].HolaToggleHint?) ==>
              && r.app.tri == app.tri
              && (!Layout.HolaDrawFails(app.tri) ==> r.reported == [])
              && (Layout.HolaDrawFails(app.tri) ==> |r.reported| == |evs|)
    decreases |evs|
  {
    if evs == [] then Run(app, [])
    else
      var step := StepHola(app, evs[0]);
      var rest := RunHola(step.app, evs[1..]);
      Run(rest.app, (if step.raised.Some? then [step.raised.value] else []) + rest.reported)
  }

  /** Mode choices the combobox can produce. */
  predicate FromCombobox(evs: seq<HolaEvent>) {
    forall i :: 0 <= i < |evs| && evs[i].HolaModeChosen? ==> ComboIndex(evs[i].idx)
  }

  /** Every triangle delivered can be drawn. */
  predicate Drawable(evs: seq<HolaEvent>) {
    forall i :: 0 <= i < |evs| && (evs[i].HolaModeChosen? || evs[i].HolaNewTriangle?) ==>
      !Layout.HolaDrawFails(evs[i].t)
  }

  /** With indices the combobox can produce and triangles `draw` can place,
      no hola.py handler raises, the split stays in step and the flags stay
      exclusive. */
  lemma {:induction false} HolaInvariant(app: App, evs: seq<HolaEvent>)
    requires Synced(app) && Exclusive(app) && ComboIndex(app.mode) && !Layout.HolaDrawFails(app.tri)
    requires FromCombobox(evs) && Drawable(evs)
    ensures RunHola(app, evs).reported == []
    ensures Synced(RunHola(app, evs).app) && Exclusive(RunHola(app, evs).app)
    ensures ComboIndex(RunHola(app, evs).app.mode)
    decreases |evs|
  {
    if evs != [] {
      var step := StepHola(app, evs[0]);
      assert ComboIndex(step.app.mode);
      assert FromCombobox(evs[1..]) && Drawable(evs[1..]) by {
        forall i | 0 <= i < |evs[1..]|
          ensures evs[1..][i] == evs[i + 1]
        {
        }
      }
      HolaInvariant(step.app, evs[1..]);
    }
  }

  /** A raise does not end the session: after an out-of-range mode choice
      is reported, the next toggle still shows the solution, on the
      triangle the raising handler stored, and reports a second exception
      only when that triangle cannot be drawn. */
  lemma RunContinuesAfterRaise(app: App, t: Triangle)
    requires !app.showSolution
    ensures var r := RunHola(app, [HolaModeChosen(ModeCount, t), ToggleSolution]);
            && r.reported == [IndexError] + (if Layout.HolaDrawFails(t) then [ZeroDivisionError] else [])
            && r.app.showSolution && r.app.tri == t
  {
    var evs := [HolaModeChosen(ModeCount, t), ToggleSolution];
    var first := StepHola(app, evs[0]);
    assert first.raised == Some(IndexError) && first.app.tri == t && !first.app.showSolution;
    var second := StepHola(first.app, ToggleSolution);
    assert evs[1..] == [ToggleSolution];
    assert RunHola(first.app, evs[1..]) == Run(second.app, if second.raised.Some? then [second.raised.value] else []) by {
      assert evs[1..][1..] == [];
    }
  }

  /** Past the catalogue the lookup raises after the new triangle has been
      stored, so the split shown no longer belongs to the triangle. */
  lemma HolaOutOfRangeDesyncs(app: App, t: Triangle)
    requires app.sel.unknown != []
    ensures var r := StepHola(app, HolaModeChosen(ModeCount, t));
            r.raised == Some(IndexError) && !Synced(r.app)
  {
    assert Select(t, ModeCount).unknown == [];
  }

  /** A triangle with side c rounded to 0 makes every toggle raise. */
  lemma ZeroSideRaisesOnToggle(app: App)
    requires app.tri.c == 0.0
    ensures StepHola(app, ToggleSolution).raised == Some(ZeroDivisionError)
    ensures StepHola(app, HolaToggleHint).raised == Some(ZeroDivisionError)
  {
  }
}

=== FILE: trig.dfy ===
/** The angle-recovery helpers: `law_of_cosines_angle` (all four variants)
    and `law_of_sines_angle` (hola.py). The inverse trigonometric functions
    are parameters: `acosDeg` stands for `math.degrees(math.acos(·))`,
    `asinDeg` for `math.degrees(math.asin(·))`, and `sinDeg` for
    `math.sin(math.radians(·))`. Only their arguments are reasoned about. */
module Trig {
  import opened Common

  /** The cosine of the angle opposite `c`, by the Law of Cosines, before clamping. */
  function CosineRatio(a: real, b: real, c: real): real
    requires 2.0 * a * b != 0.0
  {
    (a * a + b * b - c * c) / (2.0 * a * b)
  }

  /** The argument `law_of_cosines_angle` hands to `acos`: None when the
      denominator `2ab` is zero, otherwise the ratio clamped into [-1, 1]. */
  function CosineArgument(a: real, b: real, c: real): (r: Option<real>)
    ensures r.None? <==> a == 0.0 || b == 0.0
    ensures r.Some? ==> -1.0 <= r.value <= 1.0
    ensures r.Some? && -1.0 <= CosineRatio(a, b, c) <= 1.0 ==> r.value == CosineRatio(a, b, c)
    ensures r.Some? && CosineRatio(a, b, c) < -1.0 ==> r.value == -1.0
    ensures r.Some? && 1.0 < CosineRatio(a, b, c) ==> r.value == 1.0
  {
    var den := 2.0 * a * b;
    if den == 0.0 then None else Some(Clamp(-1.0, 1.0, (a * a + b * b - c * c) / den))
  }

  /** `law_of_cosines_angle(a, b, c)`: the angle opposite `c`, in degrees. */
  function LawOfCosinesAngle(a: real, b: real, c: real, acosDeg: real -> real): (r: Option<real>)
    ensures r.None? <==> a == 0.0 || b == 0.0
    ensures r.Some? ==> exists v :: -1.0 <= v <= 1.0 && CosineArgument(a, b, c) == Some(v) && r.value == acosDeg(v)
  {
    match CosineArgument(a, b, c)
    case None => None
    case Some(v) => Some(acosDeg(v))
  }

  /** Strict triangle inequality on three lengths. */
  predicate StrictTriangle(a: real, b: real, c: real) {
    0.0 < a && 0.0 < b && 0.0 < c && a < b + c && b < a + c && c < a + b
  }

  /** For a genuine triangle the cosine ratio already lies strictly inside
      (-1, 1), so the clamp in `law_of_cosines_angle` never alters it. */
  lemma CosineClampInactive(a: real, b: real, c: real)
    requires StrictTriangle(a, b, c)
    ensures 2.0 * a * b != 0.0
    ensures -1.0 < CosineRatio(a, b, c) < 1.0
    ensures CosineArgument(a, b, c) == Some(CosineRatio(a, b, c))
  {
    var den := 2.0 * a * b;
    assert 0.0 < a * b by { assert 0.0 < a && 0.0 < b; }
    var num := a * a + b * b - c * c;
    // c*c < (a+b)*(a+b), hence num > -den
    assert c * c < (a + b) * (a + b) by { SquareLess(c, a + b); }
    // (a-b)*(a-b) < c*c, hence num < den
    assert (a - b) * (a - b) < c * c by {
      if a < b {
        SquareLess(b - a, c);
        assert (b - a) * (b - a) == (a - b) * (a - b);
      } else {
        SquareLess(a - b, c);
      }
    }
    assert -den < num < den;
    assert num / den < 1.0 by { DivBelow(num, den); }
    assert -1.0 < num / den by { DivAbove(num, den); }
  }

  lemma MulPos(x: real, y: real)
    requires 0.0 < x && 0.0 < y
    ensures 0.0 < x * y
  {
  }

  lemma SquareLess(d: real, c: real)
    requires 0.0 <= d < c
    ensures d * d < c * c
  {
    MulPos(c - d, c + d);
    assert (c - d) * (c + d) == c * c - d * d;
  }

  lemma DivBelow(n: real, d: real)
    requires 0.0 < d && n < d
    ensures n / d < 1.0
  {
    assert n / d * d == n;
  }

  lemma DivAbove(n: real, d: real)
    requires 0.0 < d && -d < n
    ensures -1.0 < n / d
  {
    assert n / d * d == n;
  }

  /** What `law_of_sines_angle(a, A_deg, b)` hands to `asin`: None when
      `sin A` is zero, a ZeroDivisionError when `a` is zero (the code divides
      by `a` without a guard), otherwise `b·sin A / a` clamped into [-1, 1]. */
  function SineArgument(a: real, angleA: real, b: real, sinDeg: real -> real): (r: Outcome<Option<real>>)
    ensures r == Returns(None) <==> sinDeg(angleA) == 0.0
    ensures r.Raises? <==> sinDeg(angleA) != 0.0 && a == 0.0
    ensures r.Raises? ==> r.error == ZeroDivisionError
    ensures r.Returns? && r.value.Some? ==> a != 0.0 && -1.0 <= r.value.value <= 1.0
    ensures r.Returns? && r.value.Some? && -1.0 <= b * sinDeg(angleA) / a <= 1.0 ==>
              r.value.value == b * sinDeg(angleA) / a
    ensures r.Returns? && r.value.Some? && b * sinDeg(angleA) / a <= -1.0 ==> r.value.value == -1.0
    ensures r.Returns? && r.value.Some? && 1.0 <= b * sinDeg(angleA) / a ==> r.value.value == 1.0
  {
    var s := sinDeg(angleA);
    if s == 0.0 then Returns(None)
    else if a == 0.0 then Raises(ZeroDivisionError)
    else
      var ratio := b * s / a;
      Returns(Some(if ratio <= -1.0 || ratio >= 1.0 then Clamp(-1.0, 1.0, ratio) else ratio))
  }

  /** `law_of_sines_angle(a, A_deg, b)`: angle B in degrees, or None. */
  function LawOfSinesAngle(a: real, angleA: real, b: real, sinDeg: real -> real, asinDeg: real -> real)
    : (r: Outcome<Option<real>>)
    ensures r.Raises? <==> SineArgument(a, angleA, b, sinDeg).Raises?
    ensures r == Returns(None) <==> sinDeg(angleA) == 0.0
    ensures r.Returns? && r.value.Some? ==>
              exists v :: -1.0 <= v <= 1.0 && SineArgument(a, angleA, b, sinDeg) == Returns(Some(v))
                          && r.value.value == asinDeg(v)
  {
    match SineArgument(a, angleA, b, sinDeg)
    case Raises(e) => Raises(e)
    case Returns(None) => Returns(None)
    case Returns(Some(v)) => Returns(Some(asinDeg(v)))
  }

  /** On sides built by the Law of Sines (`a = k·sin A`, `b = k·sin B`), the
      ratio `law_of_sines_angle` clamps is exactly `sin B`, so whenever the
      sine lies in [-1, 1] the recovered argument is `sin B` itself. */
  lemma SineArgumentRecoversSine(k: real, a: real, angleA: real, b: real, angleB: real, sinDeg: real -> real)
    requires k != 0.0 && sinDeg(angleA) != 0.0
    requires a == k * sinDeg(angleA) && b == k * sinDeg(angleB)
    requires -1.0 <= sinDeg(angleB) <= 1.0
    ensures SineArgument(a, angleA, b, sinDeg) == Returns(Some(sinDeg(angleB)))
  {
    RatioIsSine(k, sinDeg(angleA), sinDeg(angleB));
    assert a != 0.0;
    assert b * sinDeg(angleA) / a == sinDeg(angleB);
    assert SineArgument(a, angleA, b, sinDeg).Returns?;
    assert SineArgument(a, angleA, b, sinDeg).value.Some?;
    assert SineArgument(a, angleA, b, sinDeg).value.value == sinDeg(angleB);
  }

  lemma RatioIsSine(k: real, sa: real, sb: real)
    requires k != 0.0 && sa != 0.0
    ensures k * sa != 0.0
    ensures (k * sb) * sa / (k * sa) == sb
  {
    assert (k * sb) * sa == sb * (k * sa);
  }
}
